=== FILE: README.md ===
# restaurant-vitrine — a Dafny model of the menu back-office, the settings and the reservation handlers

restaurant-vitrine is an Express application for one restaurant. It has a public
showcase with a reservation form, and an admin back-office. This project models
the decision logic behind the main pages and states, in Dafny, what that logic
promises.

- **The dish query builder** (`models/DishModel.js`):
  - `buildWhere` turns the filter record into a WHERE clause and its parameters;
  - `getOrderBy` validates the sort column against an allow-list and normalises the direction;
  - the admin and public listing queries;
  - the insert coercions of `create` and `bulkInsert`.
- **The menu back-office** (`controllers/adminMenuController.js`):
  - the listing's query-string parsing and page clamping (20 rows a page);
  - the CSV export: a byte-order mark, a header, every field quoted, prices as `12,50`;
  - the CSV import. Each record is validated against five rules. The preview is staged: the first 200 records, a truncation notice, at most 50 row messages. The session slot moves between *no preview* and *previewed*. Confirmation inserts the valid rows one by one and stops at the first failure.
- **HTML escaping** (`utils/html.js`): `escapeHtml` and its chain of five `replaceAll` calls.
- **The settings row** (`models/SettingsModel.js`): `get` with its default configuration, and the single-row upsert `update`.
- **The admin controller** (`controllers/adminController.js`): the status badge, the allow-listed status update, and the settings form. The form covers normalisation, two validations, and a flash message shown once.
- **The public reservation form** (`controllers/publicController.js`): `createReservation` checks five fields, names the failing ones in order, and creates at most one reservation.

Database calls are returned as data, never performed. A handler gives back the query it would send, or the writes it would make. A failing call enters as a parameter. A CSV upload enters as the records the parser returns, each a map from header name to field text.

JavaScript's string and number built-ins are modelled in `text.dfy` and `numbers.dfy`:
- `trim` over the ECMAScript white-space set;
- `toUpperCase` as a per-character mapping, and `toLowerCase` on ASCII letters;
- `replaceAll` and `replace` with a one-character pattern;
- `parseInt(s, 10)`;
- `Number(s)` over decimal literals;
- `Math.round`.

Files: `wrappers.dfy` (Option), `text.dfy`, `numbers.dfy`, `html.dfy`,
`dish_model.dfy`, `admin_menu.dfy`, `settings_model.dfy`,
`admin_controller.dfy`, `public_controller.dfy`.

## Model

| member | source | states |
|---|---|---|
| `Text.TrimStart` | controllers/adminMenuController.js:517 | the result is a suffix of the input; everything removed is white space; it does not start with white space |
| `Text.TrimEnd` | controllers/adminMenuController.js:517 | the result is a prefix of the input; everything removed is white space; it does not end with white space |
| `Text.Trim` | controllers/adminMenuController.js:109 | `trim()` leaves no white space at either end; it is empty exactly when the input is all white space; it leaves an already trimmed text unchanged; it is the slice of the input that starts where the leading white space ends, with only white space before and after it |
| `Text.ToUpperAppend` | controllers/adminMenuController.js:519 | upper-casing distributes over concatenation |
| `Text.UpperOf` | controllers/adminMenuController.js:519 | `toUpperCase` of one character is never empty |
| `Text.ToUpper` | controllers/adminMenuController.js:519 | upper-casing never shortens a text, and gives "" exactly for "" |
| `Text.UpperOfExamples` | controllers/adminMenuController.js:519 | `toUpperCase` keeps accents (é to É, ÿ to Ÿ), and folds ſ to S, ı to I and ß to SS |
| `Text.ToUpperIdentity` | controllers/adminMenuController.js:519 | a text of capital ASCII letters is its own upper case, so a listed category passes the category rule unchanged |
| `Text.ToLower` | models/DishModel.js:43 | lower-casing keeps the length |
| `Text.ToLowerIdempotent` | controllers/adminMenuController.js:119 | lowering a direction that `list` already lowered changes nothing |
| `Text.FieldOr` | controllers/adminMenuController.js:109 | a field read with a fallback is the field itself when it is present and not empty, and the fallback when it is absent or empty |
| `Text.JoinEmptyIff` | controllers/adminMenuController.js:552 | joining non-empty texts gives "" exactly when there are none, so a row's error text is empty exactly when no rule failed |
| `Text.Join` | controllers/adminMenuController.js:552 | joining no parts gives ""; otherwise the result starts with the first part and its length is the parts' lengths plus one separator between each pair of neighbours |
| `Text.JoinOne` | controllers/adminMenuController.js:552 | a single part joins to itself, with no separator |
| `Text.JoinSnoc` | controllers/adminMenuController.js:552 | joining one more part appends the separator and that part, so the parts appear in order with one separator between neighbours |
| `Text.JoinTen` | controllers/adminMenuController.js:429-432 | ten parts join to the parts in order with the separator between each pair of neighbours |
| `Text.ReplaceAll` | utils/html.js:6 | `replaceAll` leaves a text without the pattern unchanged and never shortens it unless the replacement is empty |
| `Text.ReplaceAllAppend` | utils/html.js:5-10 | `replaceAll` of a one-character pattern distributes over concatenation |
| `Text.ReplaceFirst` | controllers/adminMenuController.js:521 | `replace(',', '.')` changes only the first comma, keeps the length, and leaves a text without a comma unchanged |
| `Text.ReplaceFirstAt` | controllers/adminMenuController.js:521 | in `a,b` where `a` has no comma, the result is `a.b` |
| `Numbers.NatText` | controllers/adminMenuController.js:430 | `String(n)` is a non-empty digit string without leading zeros, worth `n` |
| `Numbers.TwoDigits` | controllers/adminMenuController.js:428 | the two decimals `toFixed(2)` prints are worth the cents |
| `Numbers.DigitPrefix` | controllers/adminMenuController.js:110 | the longest leading run of digits |
| `Numbers.ParseIntPrefix` | controllers/adminMenuController.js:110 | `parseInt` is `NaN` exactly when no digit follows the white space and the optional sign |
| `Numbers.ParseIntPrefixNatText` | controllers/adminController.js:222 | `parseInt` reads back `String(n)` whatever non-digit text follows |
| `Numbers.ParseNumber` | controllers/adminMenuController.js:522 | `Number` of a blank text is 0 |
| `Numbers.ParseNumberNatText` | controllers/adminMenuController.js:533 | `Number(String(n)) == n` |
| `Numbers.ParseNumberUnsigned` | controllers/adminMenuController.js:522 | an unsigned literal starting and ending with a digit is read by the decimal grammar |
| `Numbers.ParseDecimal` | controllers/adminMenuController.js:522 | `Number("whole.frac")` is the decimal value of the digits |
| `Numbers.RoundHalfUp` | controllers/adminMenuController.js:523 | `Math.round` gives the integer within one half, halves rounded up |
| `Numbers.RoundInteger` | controllers/adminMenuController.js:523 | rounding an integer gives it back |
| `Html.EscapeCharShape` | utils/html.js:4-11 | each replacement block is free of markup characters, its only `&` begins an entity, and a plain character is kept |
| `Html.Escape` | utils/html.js:4-11 | the escaped text has no `<`, `>`, `"` or `'`; each `&` begins one of the five entities; text without special characters is unchanged |
| `Html.ReplaceChain` | utils/html.js:5-10 | the chain of five `replaceAll` calls never shortens the text, and leaves a text with none of the five special characters unchanged |
| `Html.EscapeHtml` | utils/html.js:4-11 | `null` and `undefined` give ""; an escaped string is never shorter, has no `<`, `>`, `"` or `'`, has every `&` beginning an entity, and is unchanged when it holds no special character |
| `Html.ReplaceChainAppend` | utils/html.js:5-10 | the `replaceAll` chain works character by character |
| `Html.ReplaceChainPlain` | utils/html.js:5-10 | a character none of the five calls replaces passes the chain unchanged |
| `Html.ReplaceChainSpecial` | utils/html.js:5-10 | a special character becomes its entity, which no later call of the chain alters |
| `Html.ReplaceChainChar` | utils/html.js:5-10 | on any one character the chain writes that character's block |
| `Html.EscapeIsReplaceChain` | utils/html.js:5-10 | the sequential chain equals the single-pass escape; replacing `&` first means no entity is escaped twice |
| `Html.UnescapeBlock` | utils/html.js:6-10 | each block decodes back to its character |
| `Html.UnescapeEscape` | utils/html.js:4-11 | decoding the escaped text gives back the input |
| `Html.EscapeHtmlInjective` | utils/html.js:4-11 | distinct strings have distinct escapes |
| `DishModel.FlagConditionsOf` | models/DishModel.js:18-21 | a `flag = 1` condition for exactly the listed columns whose filter is the number 1 |
| `DishModel.FlagConditions` | models/DishModel.js:18-21 | one condition per flag filter equal to the number 1; none when no flag is 1 |
| `DishModel.BuildWhere` | models/DishModel.js:8-24 | the clause is empty exactly when the search is blank and no flag is 1. The search condition comes first with three copies of the `%text%` pattern. The parameters belong to the search alone |
| `DishModel.MatchesSatisfies` | models/DishModel.js:8-24 | a row matching the conditions satisfies every active filter |
| `DishModel.SatisfiesMatches` | models/DishModel.js:8-24 | a row satisfying every active filter matches the conditions |
| `DishModel.BuildWhereSound` | models/DishModel.js:8-24 | a row matches the built clause exactly when it satisfies every active filter |
| `DishModel.SortColumnOf` | models/DishModel.js:29-42 | an allowed sort name selects itself; any other falls back to `position`; the column is always on the allow-list |
| `DishModel.DirectionOf` | models/DishModel.js:43 | DESC exactly when the lower-cased text is "desc" |
| `DishModel.OrderBy` | models/DishModel.js:29-46 | two keys: the validated column in the normalised direction, then `id ASC` |
| `DishModel.OrderByNeverTies` | models/DishModel.js:45 | the `id ASC` tie-break makes the ordering total: two different rows never compare equal, whatever the collation |
| `DishModel.OrderOf` | models/DishModel.js:88-93 | the old signature (callback in the sort position) sorts by position ascending; the new one uses `getOrderBy` |
| `DishModel.PagedParams` | models/DishModel.js:106 | the filter parameters, then `Number(limit)`, then `Number(offset)` |
| `DishModel.ListAdminPaged` | models/DishModel.js:87-108 | the filter clause, the requested or legacy ordering, and the parameters followed by limit and offset |
| `DishModel.ListAdminAll` | models/DishModel.js:109-128 | the same clause and ordering without a limit; the parameters are the filter's |
| `DishModel.ListPublic` | models/DishModel.js:135-151 | the clause is `buildWhere` of the filters with availability defaulted to 1 when the caller gave no number; `available = 1` is present exactly when the caller gave no number or gave 1; the other flags keep their meaning; the order is position then id; the parameters are the clause's |
| `DishModel.PublicFilters` | models/DishModel.js:137-140 | the defaulting keeps the search and the other three flags, sets availability to 1 when it was not a number, and keeps it otherwise |
| `DishModel.ListPublicSound` | models/DishModel.js:135-151 | a dish is listed exactly when it satisfies the caller's filters and, when the caller gave no availability, is available |
| `DishModel.Bit` | models/DishModel.js:175-178 | a flag is stored as 1 exactly when it is set, otherwise 0 |
| `DishModel.CreateValues` | models/DishModel.js:161-183 | an empty description is stored as NULL; each flag becomes 0 or 1 according to its truth; name, category, price and position pass through |
| `DishModel.CreateValuesRoundTrip` | models/DishModel.js:161-183 | reading the INSERT values back (NULL as "", 1 as set) gives the caller's record: the coercion loses nothing |
| `DishModel.BulkInsert` | models/DishModel.js:221-243 | an empty list answers zero affected rows without a query; otherwise one insert row per item, coerced as by `create` |
| `AdminMenu.QueryFlag` | controllers/adminMenuController.js:113-116 | a flag is 1 exactly when its query field is the text "1", and 0 otherwise |
| `AdminMenu.SearchText` | controllers/adminMenuController.js:109 | the search text is the trimmed `search` field, or "" when the query has none; it is blank exactly when the query has no non-blank search field |
| `AdminMenu.SortText` | controllers/adminMenuController.js:118 | the sort text is the trimmed `sort` field when it is present and not empty, otherwise `position` |
| `AdminMenu.PageNumber` | controllers/adminMenuController.js:110 | a missing or empty `page` field asks for page 1 |
| `AdminMenu.PageNumberDigits` | controllers/adminMenuController.js:110 | a `page` field spelling `n` followed by anything but a digit asks for page `n` ("3abc" asks for 3) |
| `AdminMenu.FlagFilters` | controllers/adminMenuController.js:113-116 | each of the four flag filters is the query flag of its own field |
| `AdminMenu.WithSearch` | controllers/adminMenuController.js:121 | setting the search text keeps the flags |
| `AdminMenu.LoweredDirection` | controllers/adminMenuController.js:119 | the direction lowered by `list` and lowered again by `getOrderBy` is DESC exactly when it is "desc" |
| `AdminMenu.ParseMenuParams` | controllers/adminMenuController.js:109-121 | the filters carry the trimmed search and the four query flags; the sort is the trimmed `sort` field or `position`; the direction is the trimmed `dir` field (or `asc`) lower-cased; the listing is DESC exactly when that direction is "desc" |
| `AdminMenu.MenuSearch` | controllers/adminMenuController.js:109 | the search filter is active exactly when the query carries a non-blank search |
| `AdminMenu.MenuFlags` | controllers/adminMenuController.js:113-116 | a flag filter is set exactly when its query field is "1" |
| `AdminMenu.TotalPages` | controllers/adminMenuController.js:137 | at least one page; with rows, the last page is the one holding the last row |
| `AdminMenu.Paginate` | controllers/adminMenuController.js:110-139 | the clamped page lies in 1..totalPages and equals the request when that is in range; the offset is `(page-1)*20` and below the total; a `NaN` page gives no window |
| `AdminMenu.PageQuery` | controllers/adminMenuController.js:180 | the page query has the listing's clause and its ordering; its parameters are the clause's parameters first, then a limit of 20, then the window's offset (`NaN` when the page is not a number) |
| `AdminMenu.ListPage` | controllers/adminMenuController.js:137-180 | the window is the clamped page of `Paginate`, and the query is the page query for that window; it filters exactly as the statistics query and orders by the validated sort; there is a window exactly when the page parsed |
| `AdminMenu.List` | controllers/adminMenuController.js:108-180 | `list` from the query string: the window clamps the parsed page against the total, the clause is `buildWhere` of the parsed filters, and the order is `getOrderBy` of the parsed sort and direction |
| `AdminMenu.ListSortedBy` | controllers/adminMenuController.js:118-119 | `?sort=<allowed column>&dir=desc` lists by that column descending, then by id ascending |
| `AdminMenu.CentsOf` | controllers/adminMenuController.js:523 | a price in cents exists exactly when the amount is a finite number |
| `AdminMenu.ImportPriceCents` | controllers/adminMenuController.js:521-523 | a blank price reads as 0 cents; the read-back of exported prices is `AdminMenu.ImportPriceOfExport` |
| `AdminMenu.ImportFlag` | controllers/adminMenuController.js:525-530 | a flag is set exactly when its field is the character 1 with only white space around it |
| `AdminMenu.RowCategory` | controllers/adminMenuController.js:519 | the category is empty exactly when the record has no non-blank category, and is never shorter than the trimmed field |
| `AdminMenu.ReadRow` | controllers/adminMenuController.js:516-533 | name and description are the trimmed fields, or "" when absent; the category is the trimmed, upper-cased field |
| `AdminMenu.ImportPosition` | controllers/adminMenuController.js:532-533 | a blank position reads as 0 |
| `AdminMenu.ProblemText` | controllers/adminMenuController.js:536-540 | every rule's message is non-empty; an empty category is shown as "vide" |
| `AdminMenu.Check` | controllers/adminMenuController.js:536-540 | no rule fails exactly when the row is acceptable: name and description present, a listed category, a positive price, a non-negative position |
| `AdminMenu.Problems` | controllers/adminMenuController.js:535-540 | at most five problems, and none exactly when no rule failed |
| `AdminMenu.ProblemListed` | controllers/adminMenuController.js:536-540 | each rule's problem is listed exactly when that rule failed |
| `AdminMenu.ProblemsOrdered` | controllers/adminMenuController.js:535-540 | problems are listed in the order the rules are checked |
| `AdminMenu.RowProblems` | controllers/adminMenuController.js:535-540 | at most five problems, in checking order, and none exactly when the row is acceptable |
| `AdminMenu.ErrorText` | controllers/adminMenuController.js:552 | the error text is empty exactly when there is no problem, and a single problem gives exactly its message |
| `AdminMenu.ErrorTextSnoc` | controllers/adminMenuController.js:552 | one more problem appends " • " and its message, so the messages appear in rule order separated by " • " |
| `AdminMenu.Validate` | controllers/adminMenuController.js:542-553 | the staged item is valid exactly when the row is acceptable; a price that is not a number is stored as 0 |
| `AdminMenu.ValidateRow` | controllers/adminMenuController.js:516-553 | a record is staged as valid exactly when the fields read from it are acceptable |
| `AdminMenu.BlankRowInvalid` | controllers/adminMenuController.js:536-537 | a record with a missing or blank name or description is staged as invalid |
| `AdminMenu.InvalidItems` | controllers/adminMenuController.js:557 | only invalid items, never more than the input |
| `AdminMenu.ValidItems` | controllers/adminMenuController.js:556 | only valid items; with the invalid ones they account for every item |
| `AdminMenu.ValidItemsExact` | controllers/adminMenuController.js:556 | an item is kept exactly when it is in the input and valid |
| `AdminMenu.ValidIndices` | controllers/adminMenuController.js:556 | the positions of the valid rows, increasing, each valid, and every valid row's position among them |
| `AdminMenu.ValidItemsInOrder` | controllers/adminMenuController.js:556 | the k-th kept row is the row at the k-th valid position: every valid row is kept, in the original order |
| `AdminMenu.InvalidIndices` | controllers/adminMenuController.js:557 | the positions of the invalid rows, increasing, each invalid, and every invalid row's position among them |
| `AdminMenu.InvalidItemsInOrder` | controllers/adminMenuController.js:557 | the k-th invalid row listed is the row at the k-th invalid position, in the original order |
| `AdminMenu.RowMessageLine` | controllers/adminMenuController.js:569 | messages for different line numbers differ |
| `AdminMenu.StageItems` | controllers/adminMenuController.js:516 | the first 200 records (or all of them), each validated at its own position |
| `AdminMenu.Notices` | controllers/adminMenuController.js:560-562 | a truncation notice exactly when the file holds more than 200 records |
| `AdminMenu.RowMessages` | controllers/adminMenuController.js:569 | as written: at most 50 messages, the k-th invalid row numbered k+2 |
| `AdminMenu.RowMessagesOfIndex` | controllers/adminMenuController.js:569 | as written: the k-th message names the k-th invalid row at line k+2, whatever that row's position |
| `AdminMenu.RowMessagesMisnumber` | controllers/adminMenuController.js:569 | a valid row then an invalid one: the invalid row is on line 3 but reported as line 2 |
| `AdminMenu.RowMessagesByLine` | controllers/adminMenuController.js:569 | corrected: at most 50 messages, each invalid row numbered by its own position plus 2 |
| `AdminMenu.RowMessagesByLineSound` | controllers/adminMenuController.js:569 | every corrected message names an invalid row at that row's own line |
| `AdminMenu.StagePreview` | controllers/adminMenuController.js:513-572 | as written: the staged items, their count, the valid count and the invalid count add up; the errors are the notice then the row messages |
| `AdminMenu.StagePreviewByLine` | controllers/adminMenuController.js:513-572 | the same preview with the corrected row messages |
| `AdminMenu.OnUpload` | controllers/adminMenuController.js:471-576 | a parsed file replaces the slot with its preview, as written; a parse error empties the slot; a refused, missing or unreadable file leaves it as it was |
| `AdminMenu.OnCancel` | controllers/adminMenuController.js:754-757 | cancelling always empties the slot |
| `AdminMenu.RunStaged` | controllers/adminMenuController.js:471-576 | after any sequence of uploads and cancels the slot is what the last deciding action left: empty after a cancel or an unparsable file, the preview after a parsed file; refused, missing and unreadable files change nothing |
| `AdminMenu.SlotHoldsUpload` | controllers/adminMenuController.js:471-576 | starting empty, the slot is always empty or holds the preview, as written, of a file that was uploaded and parsed |
| `AdminMenu.ConfirmValues` | controllers/adminMenuController.js:728-737 | the values handed to `create` keep the staged name, category and price; the description is NULL exactly when empty and otherwise the staged text; each of the four flags is 0 or 1, and 1 exactly when the staged flag is set; a missing position is 0 |
| `AdminMenu.ConfirmReadsBack` | controllers/adminMenuController.js:728-737 | the values read back (NULL as "", 1 as set) are the staged row's own data |
| `AdminMenu.Inserts` | controllers/adminMenuController.js:719-749 | one insert per valid row, in order |
| `AdminMenu.ConfirmAsBulk` | controllers/adminMenuController.js:728-737 | a `bulkInsert` of the staged rows' data would insert exactly the rows `importConfirm` creates one by one, in the same order |
| `AdminMenu.Confirm` | controllers/adminMenuController.js:707-752 | no preview: nothing happens. No valid row: nothing is inserted. Otherwise the valid rows up to the first failing one are inserted in order. A failure keeps the preview; success clears it |
| `AdminMenu.CsvEscape` | controllers/adminMenuController.js:422 | the field is between double quotes |
| `AdminMenu.CsvEscapeRoundTrip` | controllers/adminMenuController.js:422 | unquoting an escaped field gives back the text |
| `AdminMenu.CollapseDoubled` | controllers/adminMenuController.js:422 | collapsing doubled quotes undoes the quote doubling |
| `AdminMenu.PriceDigitsValue` | controllers/adminMenuController.js:428 | the digits of the exported price are worth the amount in euros |
| `AdminMenu.PriceText` | controllers/adminMenuController.js:428 | the exported price has two decimals after a comma, and starts with a minus sign exactly when the amount is negative |
| `AdminMenu.PriceTextDotted` | controllers/adminMenuController.js:428 | the exported price has no edge space, and its comma becomes the decimal point |
| `AdminMenu.ParseDottedPrice` | controllers/adminMenuController.js:522 | `Number` reads the dotted price as the amount in euros |
| `AdminMenu.CentsOfPrice` | controllers/adminMenuController.js:523 | `Math.round(x*100)` of `m/100` euros is `m` |
| `AdminMenu.ImportPriceOfExport` | controllers/adminMenuController.js:521-523 | the import's price rule reads back the export's price text for every non-negative amount |
| `AdminMenu.ExportFields` | controllers/adminMenuController.js:429-431 | one field per header column |
| `AdminMenu.ExportLine` | controllers/adminMenuController.js:429-432 | an exported line starts with a quoted field |
| `AdminMenu.ExportLineFields` | controllers/adminMenuController.js:429-432 | an exported line is id, position, name, description, category, price and the four flags, each quoted, in that order, with ";" between neighbours |
| `AdminMenu.ExportLines` | controllers/adminMenuController.js:424-433 | the header line, then one line per row in query order |
| `AdminMenu.ExportCsv` | controllers/adminMenuController.js:435-440 | the file starts with a byte-order mark; with no rows it is the mark and the header line alone |
| `AdminMenu.ExportLinesSnoc` | controllers/adminMenuController.js:424-433 | one more row adds exactly its line after the lines of the earlier rows |
| `AdminMenu.ExportCsvSnoc` | controllers/adminMenuController.js:424-440 | one more row appends a newline and that row's line, so every row's line follows the previous one after "\n" |
| `AdminMenu.ExportQuery` | controllers/adminMenuController.js:399-411 | the export uses the listing's clause and ordering, unpaginated, whatever the page |
| `AdminMenu.HeaderKeyAt` | controllers/adminMenuController.js:417-420 | each header name keys the field written under it |
| `AdminMenu.ExportRecordKeyed` | controllers/adminMenuController.js:417-432 | the CSV record of an exported line maps every header to its exported text |
| `AdminMenu.CategoryReadsBack` | controllers/adminMenuController.js:519 | a listed category reads back as itself |
| `AdminMenu.FlagReadsBack` | controllers/adminMenuController.js:525 | an exported flag (1 or 0) reads back as the flag |
| `AdminMenu.PositionReadsBack` | controllers/adminMenuController.js:532-533 | an exported non-negative position reads back as its value |
| `AdminMenu.ValidateDishFields` | controllers/adminMenuController.js:535-553 | a dish meeting the rules is staged as itself with no error |
| `AdminMenu.ExportedName` | controllers/adminMenuController.js:517 | an exported name reads back |
| `AdminMenu.ExportedDescription` | controllers/adminMenuController.js:518 | an exported description reads back |
| `AdminMenu.ExportedCategory` | controllers/adminMenuController.js:519 | an exported listed category reads back |
| `AdminMenu.ExportedPrice` | controllers/adminMenuController.js:521-523 | an exported non-negative price reads back in cents |
| `AdminMenu.ExportedPosition` | controllers/adminMenuController.js:532-533 | an exported non-negative position reads back |
| `AdminMenu.ExportedFlag` | controllers/adminMenuController.js:525-530 | each exported flag column reads back as its flag |
| `AdminMenu.ReadRowFrom` | controllers/adminMenuController.js:516-533 | a record whose columns each read as a field of a row is read as that row |
| `AdminMenu.ExportReadsBack` | controllers/adminMenuController.js:516-533 | a well-formed dish's exported line reads back as the dish's values |
| `AdminMenu.ExportThenImport` | controllers/adminMenuController.js:417-553 | export then import of a well-formed dish yields a valid row with the same name, description, category, price, flags and position |
| `SettingsModel.MapRow` | models/SettingsModel.js:4-17 | capacity defaults to 0 and opening hours to ""; the switch becomes 1 exactly for a non-zero value; the other columns pass through |
| `SettingsModel.Get` | models/SettingsModel.js:19-39 | the settings always have id 1 and a 0/1 switch; with row 1 they are that row as `mapRow` reads it, without it the default configuration |
| `SettingsModel.MakePayload` | models/SettingsModel.js:41-51 | nullish texts take their defaults; a non-finite capacity becomes 40; the switch is 1 exactly for a non-zero number |
| `SettingsModel.Update` | models/SettingsModel.js:41-77 | the upsert leaves the payload at row 1, whether that row existed or not, and touches no other row |
| `SettingsModel.SingleRow` | models/SettingsModel.js:53-65 | any sequence of updates on a table holding at most row 1 keeps at most row 1 |
| `SettingsModel.UpdateIdempotent` | models/SettingsModel.js:53-76 | repeating an update with the same data and timestamp changes nothing |
| `SettingsModel.GetAfterUpdate` | models/SettingsModel.js:19-77 | after an update, `get` reads back the payload and the timestamp |
| `AdminController.Badge` | controllers/adminController.js:7-12 | CONFIRMED and CANCELLED are shown as themselves; any other status (unknown, empty or missing) shows as PENDING |
| `AdminController.WrittenStatusShown` | controllers/adminController.js:7-12 | every status the update writes is shown afterwards as its own badge |
| `AdminController.UpdateReservationStatus` | controllers/adminController.js:105-120 | a status off the allow-list gets 400 and no write; an allowed status is written once; 500 exactly when the write fails, a redirect otherwise |
| `AdminController.SaveDecision` | controllers/adminController.js:226-245 | an empty name, then an invalid capacity, each give their error flash with no update. Otherwise exactly one update with the form's data, then a success or database-error flash |
| `AdminController.ReadSettingsForm` | controllers/adminController.js:216-224 | each text is the trimmed field, or "" when absent; the switch is 0 or 1, and 1 exactly when its field is the text "1"; a non-empty capacity field is read by `parseInt` |
| `AdminController.SettingsSave` | controllers/adminController.js:215-245 | a missing or blank name is refused with its flash and no update; an update carries the trimmed name, and the switch on exactly when its field is "1" |
| `AdminController.CapacityDefault` | controllers/adminController.js:222 | a missing or empty capacity reads as 40 |
| `AdminController.CapacityDigitPrefix` | controllers/adminController.js:222 | for every `n`, a capacity field spelling `n` followed by anything but a digit reads as `n` ("12abc" gives 12) |
| `AdminController.SaveThenGet` | controllers/adminController.js:215-245 | after a successful save, the settings read back the trimmed name, the parsed capacity and the switch |
| `AdminController.SettingsPage` | controllers/adminController.js:126-134 | a failed read gives 500 and leaves the flash in the session; a successful read shows the flash and clears it |
| `AdminController.FlashShownOnce` | controllers/adminController.js:133-134 | the page after the one that showed a flash shows none |
| `PublicController.LabelsFrom` | controllers/publicController.js:93-99 | the failing checks' labels, in checking order, each listed exactly when its check fails |
| `PublicController.PeopleCount` | controllers/publicController.js:96-97 | an accepted count is `Number(people)` and an integer from 1 to 20; a rejected one is missing, not a number, not an integer, or out of range |
| `PublicController.PeopleCountOfText` | controllers/publicController.js:96-97 | every count from 1 to 20 typed in the form is accepted as itself |
| `PublicController.PeopleCountEmpty` | controllers/publicController.js:96-97 | an empty count is `Number("") == 0` and is refused |
| `PublicController.ReadChecks` | controllers/publicController.js:94-99 | name and phone pass exactly when present and not all white space; the count passes exactly when `PeopleCount` accepts the field, and is then from 1 to 20; date and time pass exactly when present and non-empty |
| `PublicController.Labels` | controllers/publicController.js:93-99 | each of Nom, Téléphone, Personnes, Date, Heure is listed exactly when its check fails, in that order; none exactly when all pass |
| `PublicController.CreateReservation` | controllers/publicController.js:89-111 | any failing check redirects with the joined labels and creates nothing. Otherwise exactly one reservation is created with the untrimmed texts and the parsed count; 500 exactly when the create fails |
| `PublicController.LabelsOfForm` | controllers/publicController.js:94-99 | name and phone fail when missing or blank once trimmed; date and time fail when missing or empty |
| `PublicController.PeopleLabelOfForm` | controllers/publicController.js:96-97 | the count fails exactly when it is missing, not a number, not an integer, or outside 1..20 |

## Left out

- Rendering is not modelled: HTML pages, `layout`/`shell`, `highlight`, `colLabel`, `dishForm`, the pager, the sort links, `importPreviewPage`. `escapeHtml` is modelled; the markup around it is not.
- Input and output are not modelled: HTTP, sessions, redirects (only their targets), multer, `fs` and `console.error`. The database driver too: each call is a value, and its failure is a parameter.
- The CSV tokenizer (`csv-parse` with `;`, `trim`, `columns`, `skip_empty_lines`) is not modelled. An upload arrives as its parsed records. The export's read-back is stated on the record the reader would return for an exported line.
- Clocks are not modelled: `updated_at` arrives as a parameter, and the export file name's date is left out.
- `encodeURIComponent` of the reservation error and `URLSearchParams` are not modelled. The model keeps the joined label text before encoding.
- The dish `create`, `update` and `remove` handlers, `getById`, `countAdmin`, `ReservationModel`, authentication, routes and `scripts/createAdmin.js` are outside the modelled core.
- `statsAdmin`'s sub-counts (available, vegetarian, halal, spicy) are only displayed. Its `total` enters `list` as a parameter.
- The 500 answers of `list` and `exportCsv` when a database call fails are not modelled: `list` has one for the statistics query and one for the page query, `exportCsv` one. They send a fixed message and nothing else.
- Query and body fields are modelled as single texts. Express gives an array for a repeated field (`?search=a&search=b`). `.trim()` then throws a TypeError and Express answers 500. Likewise `===` with '1' fails, so the flag reads as 0.
- Strings are sequences of Unicode scalar values. JavaScript strings are UTF-16 code units, so a lone surrogate cannot be written in the model, and lengths count astral characters once.
- `AdminMenu.RowCategory`: `toUpperCase` is modelled for ASCII, Latin-1 and the characters whose upper case is ASCII (ſ, ı, the ligatures), so deciding whether a category is listed is exact. Other scripts are left unchanged, where JavaScript would upper-case them. That only changes the category echoed in the "Catégorie invalide (…)" message.
- `Text.ToLower`: lower-cases ASCII letters only. Its one use, comparing with "desc", gives the same answer as full `toLowerCase`, because no non-ASCII character lower-cases to d, e, s or c.
- `Numbers.ParseNumber`: decimal literals only. An exponent ("1e1" is 10 in JavaScript), `0x`/`0o`/`0b` prefixes and "Infinity" all read as not-a-number. Values are exact reals: there is no IEEE rounding, and no overflow to Infinity past about 1.8e308 (a 400-digit price is finite here but not in JavaScript).
- `AdminMenu.ImportPriceCents`: rounds the exact decimal, not the double. "1,005" gives 101 here, while JavaScript computes 1.005*100 as 100.49999999999999 and gives 100. An exponent price such as "1e1" is refused here but worth 1000 cents in JavaScript. A 400-digit price is accepted here but is Infinity, so refused, in JavaScript. The export round trip is proved only for non-negative amounts.
- `AdminMenu.ImportPriceOfExport`: proved for non-negative amounts; export of a negative price is not read back.
- `PublicController.PeopleCount`: inherits `Numbers.ParseNumber`'s grammar, so "1e1" or "0x5" as a count is refused here and accepted in JavaScript.
- `Numbers.ParseIntPrefix`: integers are unbounded. JavaScript's `parseInt` gives an imprecise double past 2^53 and Infinity past about 309 digits, which the settings form would then refuse as a capacity.
- `SettingsModel.UpdateData`: the capacity is an integer or absent. A finite non-integer would be rounded by the INT column and is not modelled; the settings form only produces integers from `parseInt`.
- `DishModel.ListPublic`: a caller's `available` is `Some(n)` for an integer `n` or absent. A NaN or fractional number keeps no availability condition in the source (it is a number, but not 1), and cannot be written in the model.
- `AdminMenu.ReadRow`: its contract states the texts and the category. Price, position and flags are stated by `ImportPriceCents`, `ImportPosition`, `ImportFlag` and the export round trip `ExportThenImport`.
- `DishModel.CreateValues`: takes price and position as numbers. `Number` of a non-numeric text (NaN reaching the INSERT) is not modelled; the import only confirms valid rows.
- The SQL `LIKE` match and the text collation of ORDER BY are parameters (`like`, `collate`), not a model of MySQL's rules.
- `AdminMenu.PriceText`: works on exact integers; `Number(price_cents) / 100` in doubles is exact for the cent amounts a menu holds, but not past 2^53.

## Findings

| source | as written | input that shows it | evidently intended | confidence | as-written member | corrected member |
|---|---|---|---|---|---|---|
| controllers/adminMenuController.js:569 | each row message is numbered `i + 2`, where `i` is the row's index among the invalid rows only | records [valid row, row with a blank name]: the invalid row is on file line 3 (header on line 1) but the message says "Ligne 2" | number each invalid row by its own position in the file plus 2 | not executed | `AdminMenu.RowMessagesMisnumber` (`AdminMenu.RowMessages`, `AdminMenu.StagePreview`) | `AdminMenu.RowMessagesByLine` (`AdminMenu.RowMessagesByLineSound`, `AdminMenu.StagePreviewByLine`) |

`AdminMenu.OnUpload` stages the preview as written (`StagePreview`); `StagePreviewByLine` is the corrected definition the finding proposes.

=== FILE: admin_controller.dfy ===
/** The decisions of controllers/adminController.js: the reservation status
    badge, the status update behind its allow-list, and the settings form
    (its normalisation, its two validations and the one-shot flash message).
    Storage calls are returned as data: the writes a handler makes, and the
    outcome of a call whose failure is given as a parameter. */
module AdminController {
  import opened Wrappers
  import opened Text
  import opened Numbers
  import SettingsModel

  /* ---------------- reservations ---------------- */

  const ConfirmedBadge: string := "<span class=\"tag\">CONFIRMED</span>"
  const CancelledBadge: string := "<span class=\"tag tag--off\">CANCELLED</span>"
  const PendingBadge: string := "<span class=\"tag\" style=\"background:#fff7ed;color:#9a3412;\">PENDING</span>"

  /** `badge`: CONFIRMED and CANCELLED are shown as themselves, every other
      value (PENDING, an unknown text, `null`) as PENDING. */
  function Badge(status: Option<string>): (html: string)
    ensures html == ConfirmedBadge <==> status == Some("CONFIRMED")
    ensures html == CancelledBadge <==> status == Some("CANCELLED")
    ensures html == PendingBadge <==> status != Some("CONFIRMED") && status != Some("CANCELLED")
  {
    var s := status.GetOr("");
    if s == "CONFIRMED" then ConfirmedBadge
    else if s == "CANCELLED" then CancelledBadge
    else PendingBadge
  }

  /** The status a badge shows, read back from its markup. */
  function BadgeStatus(html: string): Option<string> {
    if html == ConfirmedBadge then Some("CONFIRMED")
    else if html == CancelledBadge then Some("CANCELLED")
    else if html == PendingBadge then Some("PENDING")
    else None
  }

  const AllowedStatus: seq<string> := ["PENDING", "CONFIRMED", "CANCELLED"]

  /** One `ReservationModel.updateStatus(id, status)` call. */
  datatype StatusWrite = StatusWrite(id: string, status: string)

  datatype Response = BadRequest(message: string) | ServerError(message: string) | Redirect(location: string)

  /** The storage calls a handler made and the response it sent. */
  datatype StatusOutcome = StatusOutcome(writes: seq<StatusWrite>, response: Response)

  /** `updateReservationStatus`: a status off the allow-list is answered 400
      without touching storage; an allowed one is written once, then the
      admin is redirected, or gets a 500 when the write fails. */
  function UpdateReservationStatus(id: string, status: Option<string>, writeFails: bool): (o: StatusOutcome)
    ensures o.response == BadRequest("Statut invalide") <==> !(status.Some? && status.value in AllowedStatus)
    ensures o.response.BadRequest? ==> o.writes == []
    ensures !o.response.BadRequest? ==> o.writes == [StatusWrite(id, status.value)]
    ensures forall w :: w in o.writes ==> w.status in AllowedStatus
    ensures o.response == ServerError("Erreur mise à jour statut") <==> o.writes != [] && writeFails
    ensures o.response == Redirect("/admin/reservations") <==> o.writes != [] && !writeFails
  {
    if !(status.Some? && status.value in AllowedStatus) then StatusOutcome([], BadRequest("Statut invalide"))
    else
      var writes := [StatusWrite(id, status.value)];
      if writeFails then StatusOutcome(writes, ServerError("Erreur mise à jour statut"))
      else StatusOutcome(writes, Redirect("/admin/reservations"))
  }

  /** Every status the update writes is shown afterwards as its own badge. */
  lemma {:induction false} WrittenStatusShown(id: string, status: Option<string>, writeFails: bool)
    ensures forall w :: w in UpdateReservationStatus(id, status, writeFails).writes ==>
      BadgeStatus(Badge(Some(w.status))) == Some(w.status)
  {
    var o := UpdateReservationStatus(id, status, writeFails);
    forall w | w in o.writes ensures BadgeStatus(Badge(Some(w.status))) == Some(w.status) {
      assert w.status in AllowedStatus;
      BadgesDiffer();
    }
  }

  /** The three badges are distinct markup. */
  lemma {:induction false} BadgesDiffer()
    ensures ConfirmedBadge != CancelledBadge && ConfirmedBadge != PendingBadge && CancelledBadge != PendingBadge
  {
    assert |ConfirmedBadge| < |CancelledBadge| < |PendingBadge|;
  }

  /* ---------------- settings ---------------- */

  datatype FlashKind = OkFlash | ErrFlash

  /** The session's `settingsFlash`. */
  datatype Flash = Flash(kind: FlashKind, message: string)

  /** The payload `settingsSave` builds: five trimmed texts, the capacity
      through `parseInt` (`None` for `NaN`) and the reservation switch. */
  datatype SaveForm = SaveForm(
    restaurantName: string, address: string, phone: string, email: string,
    openingHours: string, capacity: Option<int>, reservationEnabled: int)

  /** Reads the form: `(field || '').trim()` for the texts,
      `parseInt(capacity || '40', 10)`, and 1 exactly when the switch field
      is the text "1". */
  function ReadSettingsForm(body: map<string, string>): (f: SaveForm)
    ensures TextColumn(body, "restaurant_name", f.restaurantName) && TextColumn(body, "address", f.address)
    ensures TextColumn(body, "phone", f.phone) && TextColumn(body, "email", f.email)
    ensures TextColumn(body, "opening_hours", f.openingHours)
    ensures f.reservationEnabled == 0 || f.reservationEnabled == 1
    ensures f.reservationEnabled == 1 <==> "reservation_enabled" in body && body["reservation_enabled"] == "1"
    ensures "capacity" in body && body["capacity"] != "" ==> f.capacity == ParseIntPrefix(body["capacity"])
  {
    TrimmedColumn(body, "restaurant_name", FieldOr(body, "restaurant_name", ""));
    TrimmedColumn(body, "address", FieldOr(body, "address", ""));
    TrimmedColumn(body, "phone", FieldOr(body, "phone", ""));
    TrimmedColumn(body, "email", FieldOr(body, "email", ""));
    TrimmedColumn(body, "opening_hours", FieldOr(body, "opening_hours", ""));
    SaveForm(
      Trim(FieldOr(body, "restaurant_name", "")), Trim(FieldOr(body, "address", "")),
      Trim(FieldOr(body, "phone", "")), Trim(FieldOr(body, "email", "")),
      Trim(FieldOr(body, "opening_hours", "")),
      ParseIntPrefix(FieldOr(body, "capacity", "40")),
      if "reservation_enabled" in body && body["reservation_enabled"] == "1" then 1 else 0)
  }

  predicate CapacityAcceptable(capacity: Option<int>) {
    capacity.Some? && capacity.value >= 1
  }

  /** The data `settingsSave` hands to `SettingsModel.update`. */
  function UpdateDataOf(f: SaveForm): SettingsModel.UpdateData {
    SettingsModel.UpdateData(
      Some(f.restaurantName), Some(f.address), Some(f.phone), Some(f.email),
      f.capacity, Some(f.reservationEnabled), Some(f.openingHours))
  }

  const NameMissing: string := "Le nom du restaurant est obligatoire."
  const CapacityInvalid: string := "Capacité invalide (min 1)."
  const SaveFailed: string := "Erreur BDD : paramètres non enregistrés."
  const Saved: string := "Paramètres enregistrés."

  /** The update call `settingsSave` made, if any, and the flash it left.
      The response is always a redirect to the settings page. */
  datatype SaveOutcome = SaveOutcome(update: Option<SettingsModel.UpdateData>, flash: Flash)

  /** The validations, in order, then the single update call. Either
      validation failing means no update call. */
  function SaveDecision(f: SaveForm, updateFails: bool): (o: SaveOutcome)
    ensures f.restaurantName == "" ==> o == SaveOutcome(None, Flash(ErrFlash, NameMissing))
    ensures f.restaurantName != "" && !CapacityAcceptable(f.capacity) ==>
      o == SaveOutcome(None, Flash(ErrFlash, CapacityInvalid))
    ensures o.update.Some? <==> f.restaurantName != "" && CapacityAcceptable(f.capacity)
    ensures o.update.Some? ==> o.update.value == UpdateDataOf(f)
    ensures o.update.Some? ==> (o.flash == Flash(OkFlash, Saved) <==> !updateFails)
    ensures o.update.Some? && updateFails ==> o.flash == Flash(ErrFlash, SaveFailed)
  {
    if f.restaurantName == "" then SaveOutcome(None, Flash(ErrFlash, NameMissing))
    else if !CapacityAcceptable(f.capacity) then SaveOutcome(None, Flash(ErrFlash, CapacityInvalid))
    else if updateFails then SaveOutcome(Some(UpdateDataOf(f)), Flash(ErrFlash, SaveFailed))
    else SaveOutcome(Some(UpdateDataOf(f)), Flash(OkFlash, Saved))
  }

  /** `settingsSave`: a missing or blank name is refused before anything
      else; a saved name is the trimmed field, and the switch is on exactly
      when its field is "1". */
  function SettingsSave(body: map<string, string>, updateFails: bool): (o: SaveOutcome)
    ensures "restaurant_name" !in body || IsBlank(body["restaurant_name"]) ==>
      o == SaveOutcome(None, Flash(ErrFlash, NameMissing))
    ensures o.update.Some? ==>
      && "restaurant_name" in body
      && o.update.value.restaurantName == Some(Trim(body["restaurant_name"]))
      && (o.update.value.reservationEnabled == Some(1)
          <==> "reservation_enabled" in body && body["reservation_enabled"] == "1")
  {
    SaveDecision(ReadSettingsForm(body), updateFails)
  }

  /** A missing or empty capacity field reads as 40. */
  lemma {:induction false} CapacityDefault(body: map<string, string>)
    requires "capacity" !in body || body["capacity"] == ""
    ensures ReadSettingsForm(body).capacity == Some(40)
  {
    assert FieldOr(body, "capacity", "40") == "40";
    assert NatText(40) + "" == "40" by {
      assert NatText(4) == "4";
      assert NatText(40) == "40";
    }
    ParseIntPrefixNatText(40, "");
  }

  /** The capacity is read as `parseInt` reads it: the number its leading
      digits spell, whatever follows them, so "12abc" gives 12. */
  lemma {:induction false} CapacityDigitPrefix(body: map<string, string>, n: nat, rest: string)
    requires "capacity" in body && body["capacity"] == NatText(n) + rest
    requires rest == [] || !IsDigit(rest[0])
    ensures ReadSettingsForm(body).capacity == Some(n)
  {
    ParseIntPrefixNatText(n, rest);
  }

  /** A successful save is what the settings page reads next: the trimmed
      name, the parsed capacity and the switch. */
  lemma {:induction false} SaveThenGet(table: SettingsModel.Table, body: map<string, string>, stamp: Option<string>)
    requires SettingsSave(body, false).update.Some?
    ensures var s := SettingsModel.Get(SettingsModel.Update(table, SettingsSave(body, false).update.value, stamp));
      var f := ReadSettingsForm(body);
      && s.restaurantName == Some(f.restaurantName)
      && Some(s.capacity) == f.capacity
      && s.reservationEnabled == f.reservationEnabled
  {
    var f := ReadSettingsForm(body);
    var d := UpdateDataOf(f);
    assert SettingsSave(body, false).update.value == d;
    SettingsModel.GetAfterUpdate(table, d, stamp);
  }

  /** What `settingsPage` sends. */
  datatype PageResponse = PageError(message: string) | SettingsForm(settings: SettingsModel.Settings, flash: Option<Flash>)

  /** `settingsPage`, given the flash in the session and the settings read
      (`None` when the read failed). The flash is shown and cleared once
      the settings are read; a failed read leaves it in the session. */
  function SettingsPage(flash: Option<Flash>, read: Option<SettingsModel.Settings>): (r: (Option<Flash>, PageResponse))
    ensures read.None? ==> r.0 == flash && r.1 == PageError("Erreur chargement paramètres")
    ensures read.Some? ==> r.0 == None && r.1 == SettingsForm(read.value, flash)
  {
    match read
    case None => (flash, PageError("Erreur chargement paramètres"))
    case Some(s) => (None, SettingsForm(s, flash))
  }

  /** A flash is shown at most once: the page after the one that showed it
      shows none. */
  lemma {:induction false} FlashShownOnce(flash: Option<Flash>, first: SettingsModel.Settings, second: SettingsModel.Settings)
    ensures var after := SettingsPage(flash, Some(first)).0;
      SettingsPage(after, Some(second)).1 == SettingsForm(second, None)
  {
  }
}

=== FILE: admin_menu.dfy ===
/** The decision logic of controllers/adminMenuController.js: the listing's
    parameter parsing and page clamping, the CSV import (row validation,
    preview staging, the Idle/Previewed session slot, confirmation) and the
    CSV export. The CSV tokenizer is not modelled: an uploaded file arrives
    as the records it parses into, each a map from header name to field. */
module AdminMenu {
  import opened Wrappers
  import opened Text
  import opened Numbers
  import DishModel

  function Min(a: int, b: int): int {
    if a < b then a else b
  }

  /* ---------------- listing: filters, sort and pagination ---------------- */

  /** The listing's filters and sort request, read from the query string. */
  datatype MenuParams = MenuParams(filters: DishModel.Filters, sort: string, dir: string)

  function FlagKey(col: DishModel.FlagColumn): string {
    match col
    case Vegetarian => "veg"
    case Halal => "halal"
    case Spicy => "spicy"
    case Available => "available"
  }

  /** 1 when the query field is exactly "1", 0 otherwise. */
  function QueryFlag(query: map<string, string>, key: string): (r: Option<int>)
    ensures r == Some(1) || r == Some(0)
    ensures r == Some(1) <==> key in query && query[key] == "1"
  {
    if key in query && query[key] == "1" then Some(1) else Some(0)
  }

  /** `(query.search || '').trim()`: the trimmed search field, "" when there
      is none. */
  function SearchText(query: map<string, string>): (s: string)
    ensures "search" in query ==> s == Trim(query["search"])
    ensures "search" !in query ==> s == ""
    ensures IsBlank(s) <==> !("search" in query && !IsBlank(query["search"]))
  {
    var raw := FieldOr(query, "search", "");
    assert Trim(Trim(raw)) == Trim(raw);
    assert IsBlank(raw) <==> !("search" in query && !IsBlank(query["search"])) by {
      if "search" in query && query["search"] != "" {
        assert raw == query["search"];
      } else {
        assert raw == "";
        assert IsBlank("");
      }
    }
    Trim(raw)
  }

  /** The four flag filters: each is 1 exactly when its query field is "1". */
  function FlagFilters(query: map<string, string>): (f: DishModel.Filters)
    ensures f.search == None
    ensures forall col :: DishModel.FlagValue(f, col) == QueryFlag(query, FlagKey(col))
  {
    var f := DishModel.Filters(
      None,
      QueryFlag(query, FlagKey(DishModel.Vegetarian)), QueryFlag(query, FlagKey(DishModel.Halal)),
      QueryFlag(query, FlagKey(DishModel.Spicy)), QueryFlag(query, FlagKey(DishModel.Available)));
    assert forall col :: DishModel.FlagValue(f, col) == QueryFlag(query, FlagKey(col)) by {
      forall col ensures DishModel.FlagValue(f, col) == QueryFlag(query, FlagKey(col)) {
        if col.Vegetarian? {
        } else if col.Halal? {
        } else if col.Spicy? {
        } else {
          assert col.Available?;
        }
      }
    }
    f
  }

  /** `f` with its search text replaced; the flags are kept. */
  function WithSearch(f: DishModel.Filters, search: string): (g: DishModel.Filters)
    ensures g.search == Some(search)
    ensures forall col :: DishModel.FlagValue(g, col) == DishModel.FlagValue(f, col)
  {
    var g := f.(search := Some(search));
    assert forall col :: DishModel.FlagValue(g, col) == DishModel.FlagValue(f, col) by {
      forall col ensures DishModel.FlagValue(g, col) == DishModel.FlagValue(f, col) {
        if col.Vegetarian? {
        } else if col.Halal? {
        } else if col.Spicy? {
        } else {
          assert col.Available?;
        }
      }
    }
    g
  }

  /** Lower-casing the direction before `DishModel.OrderBy` lower-cases it
      again changes nothing. */
  lemma {:induction false} LoweredDirection(sort: string, dir: string)
    ensures DishModel.OrderBy(sort, ToLower(dir))[0].direction == DishModel.Desc <==> ToLower(dir) == "desc"
  {
    ToLowerIdempotent(dir);
  }

  /** `(query.sort || 'position').trim()`: the trimmed sort field, or
      "position" when it is missing or empty. */
  function SortText(query: map<string, string>): (sort: string)
    ensures "sort" in query && query["sort"] != "" ==> sort == Trim(query["sort"])
    ensures "sort" !in query || query["sort"] == "" ==> sort == "position"
  {
    assert NoEdgeSpace("position");
    Trim(FieldOr(query, "sort", "position"))
  }

  /** The filters and sort shared by `list` and `exportCsv`. The listing is
      descending exactly when the `dir` field, trimmed, is "desc" in any ASCII
      case; the sort column is chosen by `DishModel.OrderBy` from its
      allow-list. */
  function ParseMenuParams(query: map<string, string>): (m: MenuParams)
    ensures m.filters.search == Some(SearchText(query))
    ensures forall col :: DishModel.FlagValue(m.filters, col) == QueryFlag(query, FlagKey(col))
    ensures m.sort == SortText(query)
    ensures m.dir == ToLower(Trim(FieldOr(query, "dir", "asc")))
    ensures DishModel.OrderBy(m.sort, m.dir)[0].direction == DishModel.Desc
            <==> ToLower(Trim(FieldOr(query, "dir", "asc"))) == "desc"
  {
    var flags := FlagFilters(query);
    var filters := WithSearch(flags, SearchText(query));
    var sort := SortText(query);
    var dir := Trim(FieldOr(query, "dir", "asc"));
    LoweredDirection(sort, dir);
    MenuParams(filters, sort, ToLower(dir))
  }

  /** The search filter is active exactly when the query carries a search
      text that is not blank. */
  lemma {:induction false} MenuSearch(query: map<string, string>)
    ensures DishModel.SearchActive(ParseMenuParams(query).filters) <==> "search" in query && !IsBlank(query["search"])
  {
  }

  /** A flag filter is set exactly when its query field is the text "1". */
  lemma {:induction false} MenuFlags(query: map<string, string>, col: DishModel.FlagColumn)
    ensures DishModel.FlagValue(ParseMenuParams(query).filters, col) == Some(1)
            <==> FlagKey(col) in query && query[FlagKey(col)] == "1"
  {
    var k := FlagKey(col);
    var m := ParseMenuParams(query);
    assert DishModel.FlagValue(m.filters, col) == QueryFlag(query, k);
    assert QueryFlag(query, k) == Some(1) <==> k in query && query[k] == "1";
  }

  /** `Math.ceil(total / 20)`, at least 1. */
  function TotalPages(total: nat): (r: nat)
    ensures r >= 1
    ensures total == 0 ==> r == 1
    ensures total > 0 ==> (r - 1) * 20 < total <= r * 20
  {
    var pages := (total + 19) / 20;
    if pages > 1 then pages else 1
  }

  datatype PageWindow = PageWindow(page: int, offset: int)

  /** `parseInt(query.page || '1', 10)`, before clamping. */
  function PageNumber(query: map<string, string>): (p: Option<int>)
    ensures "page" !in query || query["page"] == "" ==> p == Some(1)
  {
    assert NatText(1) + "" == "1";
    ParseIntPrefixNatText(1, "");
    ParseIntPrefix(FieldOr(query, "page", "1"))
  }

  /** A page field that starts with the digits of `n` asks for page `n`,
      whatever non-digit text follows them. */
  lemma {:induction false} PageNumberDigits(query: map<string, string>, n: nat, rest: string)
    requires "page" in query && query["page"] == NatText(n) + rest
    requires rest == [] || !IsDigit(rest[0])
    ensures PageNumber(query) == Some(n)
  {
    assert FieldOr(query, "page", "1") == NatText(n) + rest;
    ParseIntPrefixNatText(n, rest);
  }

  /** `safePage = Math.min(Math.max(page, 1), totalPages)` and its offset. A
      page that is not a number (`NaN`) passes through both and yields no
      window. */
  function Paginate(total: nat, page: Option<int>): (w: Option<PageWindow>)
    ensures w.Some? <==> page.Some?
    ensures w.Some? ==>
      && 1 <= w.value.page <= TotalPages(total)
      && w.value.offset == (w.value.page - 1) * 20
      && 0 <= w.value.offset
      && (total > 0 ==> w.value.offset < total)
      && (1 <= page.value <= TotalPages(total) ==> w.value.page == page.value)
      && (page.value > TotalPages(total) ==> w.value.page == TotalPages(total))
      && (page.value < 1 ==> w.value.page == 1)
  {
    match page
    case None => None
    case Some(p) =>
      var atLeastOne := if p > 1 then p else 1;
      var safe := Min(atLeastOne, TotalPages(total));
      Some(PageWindow(safe, (safe - 1) * 20))
  }

  /** What `list` asks of the store once the statistics report `total` rows. */
  datatype ListPlan = ListPlan(window: Option<PageWindow>, query: DishModel.Query)

  function OffsetOf(w: Option<PageWindow>): Option<int> {
    match w
    case Some(v) => Some(v.offset)
    case None => None
  }

  /** The page query of `list`: the listing's filters and sort, a limit of
      20 and the window's offset (`NaN` when the page is not a number). */
  function PageQuery(m: MenuParams, w: Option<PageWindow>): (q: DishModel.Query)
    ensures q.where == DishModel.BuildWhere(m.filters)
    ensures q.order == DishModel.OrderBy(m.sort, m.dir)
    ensures var n := |q.where.params|;
      && |q.params| == n + 2
      && q.params[..n] == q.where.params
      && q.params[n] == DishModel.NumParam(20)
      && (w.Some? ==> q.params[n + 1] == DishModel.NumParam(w.value.offset))
      && (w.None? ==> q.params[n + 1] == DishModel.NaNParam)
  {
    var q := DishModel.ListAdminPaged(m.filters, Some(20), OffsetOf(w), DishModel.SortAndDirection(m.sort, m.dir));
    var n := |q.where.params|;
    assert q.params[n] == DishModel.NumberParam(Some(20));
    assert q.params[n + 1] == DishModel.NumberParam(OffsetOf(w));
    q
  }

  /** `list`, given the parsed parameters and page number: the clamped page
      window and the page query. The statistics that give `total` use the
      same WHERE clause as the page query. */
  function ListPage(m: MenuParams, page: Option<int>, total: nat): (plan: ListPlan)
    ensures plan.window == Paginate(total, page)
    ensures plan.query == PageQuery(m, plan.window)
    ensures plan.query.where == DishModel.BuildWhere(m.filters)
    ensures plan.query.order == DishModel.OrderBy(m.sort, m.dir)
    ensures plan.window.Some? <==> page.Some?
  {
    var w := Paginate(total, page);
    ListPlan(w, PageQuery(m, w))
  }

  /** `list` as a whole, from the query string: the page read from the
      `page` field and clamped, the rows filtered by the query's filters and
      ordered by its `sort` and `dir` fields. */
  function List(query: map<string, string>, total: nat): (plan: ListPlan)
    ensures var m := ParseMenuParams(query);
      && plan.window == Paginate(total, PageNumber(query))
      && plan.query.where == DishModel.BuildWhere(m.filters)
      && plan.query.order == DishModel.OrderBy(m.sort, m.dir)
  {
    ListPage(ParseMenuParams(query), PageNumber(query), total)
  }

  /** A listing request with an allowed `sort` field and `dir=desc` is
      ordered by that column, descending, then by id. */
  lemma {:induction false} ListSortedBy(query: map<string, string>, total: nat)
    requires "sort" in query && query["sort"] in DishModel.AllowedSort
    requires "dir" in query && query["dir"] == "desc"
    ensures var order := List(query, total).query.order;
      && DishModel.ColumnName(order[0].column) == query["sort"]
      && order[0].direction == DishModel.Desc
      && order[1] == DishModel.OrderKey(DishModel.Id, DishModel.Asc)
  {
    AllowedSortTrimmed(query["sort"]);
    SortParam(query, query["sort"]);
    DescParam(query);
    DescendingBy(query["sort"], List(query, total).query.order);
  }

  /** A trimmed, non-empty sort field is the listing's sort name. */
  lemma {:induction false} SortParam(query: map<string, string>, sort: string)
    requires "sort" in query && query["sort"] == sort && sort != [] && Trim(sort) == sort
    ensures ParseMenuParams(query).sort == sort
  {
  }

  /** A `dir` field "desc" is the listing's direction. */
  lemma {:induction false} DescParam(query: map<string, string>)
    requires "dir" in query && query["dir"] == "desc"
    ensures ParseMenuParams(query).dir == "desc"
  {
    DescNormal();
    assert FieldOr(query, "dir", "asc") == "desc";
  }

  /** The ordering `getOrderBy` builds for an allowed column and "desc". */
  lemma {:induction false} DescendingBy(sort: string, order: seq<DishModel.OrderKey>)
    requires sort in DishModel.AllowedSort
    requires order == DishModel.OrderBy(sort, "desc")
    ensures DishModel.ColumnName(order[0].column) == sort
    ensures order[0].direction == DishModel.Desc
    ensures order[1] == DishModel.OrderKey(DishModel.Id, DishModel.Asc)
  {
    assert ToLower("desc") == "desc";
  }

  /** "desc" is its own trimmed, lower-cased form. */
  lemma {:induction false} DescNormal()
    ensures ToLower(Trim("desc")) == "desc"
  {
    assert NoEdgeSpace("desc");
    assert ToLower("desc") == "desc";
  }

  /** An allowed sort name has no white space at its edges. */
  lemma {:induction false} AllowedSortTrimmed(sort: string)
    requires sort in DishModel.AllowedSort
    ensures sort != [] && Trim(sort) == sort
  {
    assert sort != [] && 'a' <= sort[0] <= 'z' && 'a' <= sort[|sort| - 1] <= 'z';
    assert NoEdgeSpace(sort);
  }

  /* ---------------- import: one row ---------------- */

  /** A parsed CSV record: header name to field text. */
  type Record = map<string, string>

  /** `r[key] || ''`. */
  function Field(r: Record, key: string): (v: string)
    ensures key in r ==> v == r[key]
    ensures key !in r ==> v == ""
  {
    if key in r then r[key] else ""
  }

  const Categories: seq<string> := ["ENTREE", "PLAT", "DESSERT", "BOISSON"]

  /** The category as checked and stored: trimmed and upper-cased. */
  function RowCategory(r: Record): (c: string)
    ensures c == [] <==> !("category" in r && !IsBlank(r["category"]))
    ensures |c| >= |Trim(Field(r, "category"))|
  {
    ToUpper(Trim(Field(r, "category")))
  }

  /** The price rule: trim, replace the first comma by a point, `Number`,
      then `Math.round(x * 100)`; `None` when the number is not finite. */
  function ImportPriceCents(raw: string): (r: Option<int>)
    ensures IsBlank(raw) ==> r == Some(0)
  {
    assert IsBlank(raw) ==> ReplaceFirst(Trim(raw), ',', '.') == [];
    assert IsBlank([]);
    CentsOf(ParseNumber(ReplaceFirst(Trim(raw), ',', '.')))
  }

  /** `Math.round(x * 100)` of a parsed amount; `NaN` stays `NaN`. */
  function CentsOf(amount: Option<real>): (r: Option<int>)
    ensures r.Some? <==> amount.Some?
  {
    match amount
    case None => None
    case Some(x) => Some(RoundHalfUp(x * 100.0))
  }

  /** The position rule: a blank field is 0, anything else goes through `Number`. */
  function ImportPosition(raw: string): (r: Option<real>)
    ensures IsBlank(raw) ==> r == Some(0.0)
  {
    var t := Trim(raw);
    if t == "" then Some(0.0) else ParseNumber(t)
  }

  /** `raw` is the character "1" with only white space around it. */
  predicate PaddedOne(raw: string) {
    exists i :: 0 <= i < |raw| && raw[i] == '1' && AllSpace(raw[..i]) && AllSpace(raw[i + 1..])
  }

  /** A flag is set exactly when its trimmed field is "1". */
  function ImportFlag(raw: string): (set_: bool)
    ensures set_ <==> PaddedOne(raw)
  {
    TrimmedOne(raw);
    Trim(raw) == "1"
  }

  lemma {:induction false} TrimmedOne(raw: string)
    ensures Trim(raw) == "1" <==> PaddedOne(raw)
  {
    var t := Trim(raw);
    if t == "1" {
      var i := |raw| - |TrimStart(raw)|;
      assert EdgeSliceAt(raw, i, t);
      assert raw[i..i + 1] == t;
      assert raw[i] == '1';
    } else if PaddedOne(raw) {
      var i :| 0 <= i < |raw| && raw[i] == '1' && AllSpace(raw[..i]) && AllSpace(raw[i + 1..]);
      TrimAroundOne(raw, i);
    }
  }

  /** The one character between white-space edges is what `trim` leaves. */
  lemma {:induction false} TrimAroundOne(raw: string, i: nat)
    requires i < |raw| && !IsSpace(raw[i]) && AllSpace(raw[..i]) && AllSpace(raw[i + 1..])
    ensures Trim(raw) == [raw[i]]
  {
    TrimStartAt(raw, i);
    var t := raw[i..];
    assert t[1..] == raw[i + 1..];
    TrimEndAt(t, 1);
    assert t[..1] == [raw[i]];
  }

  /** The failing rules, each with the text the preview shows. */
  datatype RowProblem = MissingName | MissingDescription | BadCategory(category: string) | BadPrice | BadPosition

  function ProblemText(p: RowProblem): (t: string)
    ensures t != ""
  {
    match p
    case MissingName => "Nom manquant"
    case MissingDescription => "Description manquante"
    case BadCategory(c) => "Catégorie invalide (" + (if c == "" then "vide" else c) + ")"
    case BadPrice => "Prix invalide"
    case BadPosition => "Position invalide"
  }

  /** The order in which the rules are checked. */
  function Rank(p: RowProblem): nat {
    match p
    case MissingName => 0
    case MissingDescription => 1
    case BadCategory(_) => 2
    case BadPrice => 3
    case BadPosition => 4
  }

  predicate PriceAcceptable(price: Option<int>) {
    price.Some? && price.value > 0
  }

  predicate PositionAcceptable(position: Option<real>) {
    position.Some? && position.value >= 0.0
  }

  /** A record's columns as the import reads them: name and description
      trimmed, category trimmed and upper-cased, price and position through
      their number rules, each flag set by "1". */
  datatype RowFields = RowFields(
    name: string, description: string, category: string, price: Option<int>,
    position: Option<real>, isAvailable: bool, isVegetarian: bool, isHalal: bool, isSpicy: bool)

  function ReadRow(r: Record): (f: RowFields)
    ensures TextColumn(r, "name", f.name) && TextColumn(r, "description", f.description)
    ensures f.category == RowCategory(r)
  {
    TrimmedColumn(r, "name", Field(r, "name"));
    TrimmedColumn(r, "description", Field(r, "description"));
    RowFields(
      Trim(Field(r, "name")), Trim(Field(r, "description")), RowCategory(r),
      ImportPriceCents(Field(r, "price_eur")), ImportPosition(Field(r, "position")),
      ImportFlag(Field(r, "is_available")), ImportFlag(Field(r, "is_vegetarian")),
      ImportFlag(Field(r, "is_halal")), ImportFlag(Field(r, "is_spicy")))
  }

  /** The domain rules for an importable row, stated positively. */
  predicate Acceptable(f: RowFields) {
    && f.name != ""
    && f.description != ""
    && f.category in Categories
    && PriceAcceptable(f.price)
    && PositionAcceptable(f.position)
  }

  /** The outcome of each rule for one row. */
  datatype Verdict = Verdict(
    nameBlank: bool, descriptionBlank: bool, categoryBad: bool, priceBad: bool, positionBad: bool,
    category: string)

  /** The verdict of every rule; none fails exactly when the row is acceptable. */
  function Check(f: RowFields): (v: Verdict)
    ensures v.category == f.category
    ensures (!v.nameBlank && !v.descriptionBlank && !v.categoryBad && !v.priceBad && !v.positionBad)
            <==> Acceptable(f)
  {
    Verdict(
      f.name == "", f.description == "", f.category !in Categories,
      !PriceAcceptable(f.price), !PositionAcceptable(f.position), f.category)
  }

  /** Problems listed in strictly increasing checking order. */
  predicate InCheckOrder(ps: seq<RowProblem>) {
    forall i, j :: 0 <= i < j < |ps| ==> Rank(ps[i]) < Rank(ps[j])
  }

  function When(failed: bool, p: RowProblem): (ps: seq<RowProblem>)
    ensures failed ==> ps == [p]
    ensures !failed ==> ps == []
  {
    if failed then [p] else []
  }

  /** The rule checked in position `k`, as the problem it reports. */
  function Candidate(v: Verdict, k: nat): (p: RowProblem)
    requires k < 5
    ensures Rank(p) == k
  {
    if k == 0 then MissingName
    else if k == 1 then MissingDescription
    else if k == 2 then BadCategory(v.category)
    else if k == 3 then BadPrice
    else BadPosition
  }

  /** Whether the rule checked in position `k` failed. */
  predicate Failed(v: Verdict, k: nat)
    requires k < 5
  {
    if k == 0 then v.nameBlank
    else if k == 1 then v.descriptionBlank
    else if k == 2 then v.categoryBad
    else if k == 3 then v.priceBad
    else v.positionBad
  }

  /** The problems of a verdict, one per failed rule, in checking order. */
  function Problems(v: Verdict): (ps: seq<RowProblem>)
    ensures |ps| <= 5
    ensures ps == [] <==> forall k :: 0 <= k < 5 ==> !Failed(v, k)
  {
    var ps := When(v.nameBlank, MissingName) + (When(v.descriptionBlank, MissingDescription)
      + (When(v.categoryBad, BadCategory(v.category)) + (When(v.priceBad, BadPrice)
      + When(v.positionBad, BadPosition))));
    assert ps == [] <==> !v.nameBlank && !v.descriptionBlank && !v.categoryBad && !v.priceBad && !v.positionBad;
    assert (forall k :: 0 <= k < 5 ==> !Failed(v, k))
       <==> !v.nameBlank && !v.descriptionBlank && !v.categoryBad && !v.priceBad && !v.positionBad by {
      assert Failed(v, 0) == v.nameBlank && Failed(v, 1) == v.descriptionBlank && Failed(v, 2) == v.categoryBad;
      assert Failed(v, 3) == v.priceBad && Failed(v, 4) == v.positionBad;
    }
    ps
  }

  /** Each rule's problem is listed exactly when the rule failed. */
  lemma {:induction false} ProblemListed(v: Verdict, k: nat)
    requires k < 5
    ensures Candidate(v, k) in Problems(v) <==> Failed(v, k)
  {
    var a, b, c, d, e := When(v.nameBlank, MissingName), When(v.descriptionBlank, MissingDescription),
      When(v.categoryBad, BadCategory(v.category)), When(v.priceBad, BadPrice), When(v.positionBad, BadPosition);
    if k == 0 {
      assert MissingName !in b + (c + (d + e));
    } else if k == 1 {
      assert MissingDescription !in a && MissingDescription !in c + (d + e);
    } else if k == 2 {
      assert BadCategory(v.category) !in a && BadCategory(v.category) !in b && BadCategory(v.category) !in d + e;
    } else if k == 3 {
      assert BadPrice !in a && BadPrice !in b && BadPrice !in c && BadPrice !in e;
    } else {
      assert BadPosition !in a && BadPosition !in b && BadPosition !in c && BadPosition !in d;
    }
  }

  /** Every problem in `ps` is checked at position `k` or later. */
  predicate RanksFrom(ps: seq<RowProblem>, k: nat) {
    forall i :: 0 <= i < |ps| ==> k <= Rank(ps[i])
  }

  /** Putting a problem in front of later-checked ones keeps checking order. */
  lemma {:induction false} PushOrdered(failed: bool, p: RowProblem, rest: seq<RowProblem>)
    requires InCheckOrder(rest) && RanksFrom(rest, Rank(p) + 1)
    ensures InCheckOrder(When(failed, p) + rest) && RanksFrom(When(failed, p) + rest, Rank(p))
  {
    var ps := When(failed, p) + rest;
    if failed {
      forall i, j | 0 <= i < j < |ps| ensures Rank(ps[i]) < Rank(ps[j]) {
        assert ps[j] == rest[j - 1];
        if i > 0 {
          assert ps[i] == rest[i - 1];
        }
      }
      forall i | 0 <= i < |ps| ensures Rank(p) <= Rank(ps[i]) {
        if i > 0 {
          assert ps[i] == rest[i - 1];
        }
      }
    } else {
      assert ps == rest;
    }
  }

  /** The problems are listed in checking order. */
  lemma {:induction false} ProblemsOrdered(v: Verdict)
    ensures InCheckOrder(Problems(v))
  {
    var e := When(v.positionBad, BadPosition);
    assert InCheckOrder(e) && RanksFrom(e, Rank(BadPosition));
    PushOrdered(v.priceBad, BadPrice, e);
    var d := When(v.priceBad, BadPrice) + e;
    PushOrdered(v.categoryBad, BadCategory(v.category), d);
    var c := When(v.categoryBad, BadCategory(v.category)) + d;
    PushOrdered(v.descriptionBlank, MissingDescription, c);
    var b := When(v.descriptionBlank, MissingDescription) + c;
    PushOrdered(v.nameBlank, MissingName, b);
  }

  /** One problem per failing rule, in the order the rules are checked. */
  function RowProblems(f: RowFields): (ps: seq<RowProblem>)
    ensures |ps| <= 5
    ensures InCheckOrder(ps)
    ensures ps == [] <==> Acceptable(f)
  {
    var v := Check(f);
    ProblemsOrdered(v);
    assert (forall k :: 0 <= k < 5 ==> !Failed(v, k)) <==> Acceptable(f) by {
      assert Failed(v, 0) == v.nameBlank && Failed(v, 1) == v.descriptionBlank && Failed(v, 2) == v.categoryBad;
      assert Failed(v, 3) == v.priceBad && Failed(v, 4) == v.positionBad;
    }
    Problems(v)
  }

  /** A validated row as the preview stores it; `error` is "" for a valid row. */
  datatype ImportItem = ImportItem(
    name: string, description: string, category: string, priceCents: int,
    isAvailable: bool, isVegetarian: bool, isHalal: bool, isSpicy: bool,
    position: Option<real>, error: string)

  predicate IsValid(x: ImportItem) {
    x.error == ""
  }

  /** The reasons joined by " • ". */
  function ErrorText(ps: seq<RowProblem>): (t: string)
    ensures t == "" <==> ps == []
    ensures |ps| == 1 ==> t == ProblemText(ps[0])
  {
    var texts := ProblemTexts(ps);
    JoinEmptyIff(texts, " • ");
    Join(texts, " • ")
  }

  /** The message of each problem, in order. */
  function ProblemTexts(ps: seq<RowProblem>): (texts: seq<string>)
    ensures |texts| == |ps|
    ensures forall i :: 0 <= i < |ps| ==> texts[i] == ProblemText(ps[i])
  {
    seq(|ps|, i requires 0 <= i < |ps| => ProblemText(ps[i]))
  }

  /** A further problem adds " • " and its message at the end of the text. */
  lemma {:induction false} ErrorTextSnoc(ps: seq<RowProblem>, p: RowProblem)
    requires ps != []
    ensures ErrorText(ps + [p]) == ErrorText(ps) + " • " + ProblemText(p)
  {
    assert ProblemTexts(ps + [p]) == ProblemTexts(ps) + [ProblemText(p)];
    JoinSnoc(ProblemTexts(ps), ProblemText(p), " • ");
  }

  /** The item staged for a read row: its values, a price of 0 when the
      price is not a number, and the reasons it cannot be imported. */
  function Validate(f: RowFields): (x: ImportItem)
    ensures x.error == ErrorText(RowProblems(f))
    ensures IsValid(x) <==> Acceptable(f)
    ensures f.price.Some? ==> x.priceCents == f.price.value
    ensures f.price.None? ==> x.priceCents == 0
  {
    ImportItem(
      f.name, f.description, f.category, f.price.GetOr(0),
      f.isAvailable, f.isVegetarian, f.isHalal, f.isSpicy, f.position, ErrorText(RowProblems(f)))
  }

  /** A missing or blank name or description reads as "" and fails its rule. */
  lemma {:induction false} BlankFields(r: Record, f: RowFields)
    requires TextColumn(r, "name", f.name) && TextColumn(r, "description", f.description)
    ensures "name" !in r || IsBlank(r["name"]) ==> !Acceptable(f)
    ensures "description" !in r || IsBlank(r["description"]) ==> !Acceptable(f)
  {
  }

  /** The `map` callback of `importPreview` for one record. */
  function ValidateRow(r: Record): (x: ImportItem)
    ensures IsValid(x) <==> Acceptable(ReadRow(r))
  {
    Validate(ReadRow(r))
  }

  /** A record whose name or description is missing or blank is staged as
      invalid. */
  lemma {:induction false} BlankRowInvalid(r: Record)
    requires "name" !in r || IsBlank(r["name"]) || "description" !in r || IsBlank(r["description"])
    ensures !IsValid(ValidateRow(r))
  {
    BlankFields(r, ReadRow(r));
  }

  /* ---------------- import: staging the preview ---------------- */

  /** The staged import: capped row count, valid count, messages and rows. */
  datatype Preview = Preview(total: nat, ok: nat, errors: seq<string>, items: seq<ImportItem>)

  function InvalidItems(items: seq<ImportItem>): (bad: seq<ImportItem>)
    ensures |bad| <= |items|
    ensures forall i :: 0 <= i < |bad| ==> !IsValid(bad[i])
  {
    if items == [] then []
    else (if IsValid(items[0]) then [] else [items[0]]) + InvalidItems(items[1..])
  }

  /** The valid rows in their original order; with the invalid ones they
      account for every row. */
  function ValidItems(items: seq<ImportItem>): (ok: seq<ImportItem>)
    ensures |ok| + |InvalidItems(items)| == |items|
    ensures forall i :: 0 <= i < |ok| ==> IsValid(ok[i])
  {
    if items == [] then []
    else (if IsValid(items[0]) then [items[0]] else []) + ValidItems(items[1..])
  }

  /** As written, the k-th message names the k-th invalid row, which sits at
      index `InvalidIndices(items, 0)[k]`, but numbers it k + 2. */
  lemma {:induction false} RowMessagesOfIndex(items: seq<ImportItem>)
    ensures var idx, msgs := InvalidIndices(items, 0), RowMessages(items);
      |msgs| <= |idx| && forall k :: 0 <= k < |msgs| ==> msgs[k] == RowMessage(k + 2, items[idx[k]])
  {
    InvalidItemsInOrder(items);
  }

  /** Indices of the invalid rows, in increasing order. */
  function InvalidIndices(items: seq<ImportItem>, from: nat): (idx: seq<nat>)
    requires from <= |items|
    decreases |items| - from
    ensures forall k :: 0 <= k < |idx| ==> from <= idx[k] < |items| && !IsValid(items[idx[k]])
    ensures forall k, l :: 0 <= k < l < |idx| ==> idx[k] < idx[l]
    ensures forall i :: from <= i < |items| && !IsValid(items[i]) ==> i in idx
  {
    if from == |items| then []
    else (if IsValid(items[from]) then [] else [from]) + InvalidIndices(items, from + 1)
  }

  /** Indices of the valid rows, in increasing order. */
  function ValidIndices(items: seq<ImportItem>, from: nat): (idx: seq<nat>)
    requires from <= |items|
    decreases |items| - from
    ensures forall k :: 0 <= k < |idx| ==> from <= idx[k] < |items| && IsValid(items[idx[k]])
    ensures forall k, l :: 0 <= k < l < |idx| ==> idx[k] < idx[l]
    ensures forall i :: from <= i < |items| && IsValid(items[i]) ==> i in idx
  {
    if from == |items| then []
    else (if IsValid(items[from]) then [from] else []) + ValidIndices(items, from + 1)
  }

  /** `picked[k]` is the row of `items` at index `idx[k]`, for every `k`. */
  ghost predicate PickedBy<T>(items: seq<T>, picked: seq<T>, idx: seq<nat>) {
    |picked| == |idx| && forall k :: 0 <= k < |idx| ==> idx[k] < |items| && picked[k] == items[idx[k]]
  }

  /** Keeping or dropping the row at `from` in front of rows picked by
      index keeps the picked rows and their indices in step. */
  lemma {:induction false} PickStep<T>(items: seq<T>, from: nat, keep: bool, rest: seq<T>, idx': seq<nat>)
    requires from < |items| && PickedBy(items, rest, idx')
    ensures PickedBy(items, (if keep then [items[from]] else []) + rest, (if keep then [from] else []) + idx')
  {
    if keep {
      PickKeep(items, from, rest, idx');
    } else {
      assert [] + rest == rest && [] + idx' == idx';
    }
  }

  lemma {:induction false} PickKeep<T>(items: seq<T>, from: nat, rest: seq<T>, idx': seq<nat>)
    requires from < |items| && PickedBy(items, rest, idx')
    ensures PickedBy(items, [items[from]] + rest, [from] + idx')
  {
    var ok, idx := [items[from]] + rest, [from] + idx';
    forall k | 0 <= k < |idx| ensures idx[k] < |items| && ok[k] == items[idx[k]] {
      if k > 0 {
        assert ok[k] == rest[k - 1] && idx[k] == idx'[k - 1];
      }
    }
  }

  /** `ValidItems` of a suffix picks the suffix's valid rows by index. */
  lemma {:induction false} ValidItemsFrom(items: seq<ImportItem>, from: nat)
    requires from <= |items|
    decreases |items| - from
    ensures var ok, idx := ValidItems(items[from..]), ValidIndices(items, from);
      |ok| == |idx| && forall k :: 0 <= k < |idx| ==> ok[k] == items[idx[k]]
  {
    if from < |items| {
      ValidItemsFrom(items, from + 1);
      var rest, idx' := ValidItems(items[from + 1..]), ValidIndices(items, from + 1);
      assert items[from..][0] == items[from] && items[from..][1..] == items[from + 1..];
      PickStep(items, from, IsValid(items[from]), rest, idx');
    }
  }

  /** The valid rows in their original order: the k-th kept row is the row at
      the k-th valid index. */
  lemma {:induction false} ValidItemsInOrder(items: seq<ImportItem>)
    ensures var ok, idx := ValidItems(items), ValidIndices(items, 0);
      |ok| == |idx| && forall k :: 0 <= k < |idx| ==> ok[k] == items[idx[k]]
  {
    ValidItemsFrom(items, 0);
    assert items[0..] == items;
  }

  /** `InvalidItems` of a suffix picks the suffix's invalid rows by index. */
  lemma {:induction false} InvalidItemsFrom(items: seq<ImportItem>, from: nat)
    requires from <= |items|
    decreases |items| - from
    ensures var bad, idx := InvalidItems(items[from..]), InvalidIndices(items, from);
      |bad| == |idx| && forall k :: 0 <= k < |idx| ==> bad[k] == items[idx[k]]
  {
    if from < |items| {
      InvalidItemsFrom(items, from + 1);
      var rest, idx' := InvalidItems(items[from + 1..]), InvalidIndices(items, from + 1);
      assert items[from..][0] == items[from] && items[from..][1..] == items[from + 1..];
      PickStep(items, from, !IsValid(items[from]), rest, idx');
    }
  }

  /** The invalid rows in their original order, every one of them kept. */
  lemma {:induction false} InvalidItemsInOrder(items: seq<ImportItem>)
    ensures var bad, idx := InvalidItems(items), InvalidIndices(items, 0);
      |bad| == |idx| && forall k :: 0 <= k < |idx| ==> bad[k] == items[idx[k]]
  {
    InvalidItemsFrom(items, 0);
    assert items[0..] == items;
  }

  /** Every valid row is kept and nothing else is. */
  lemma {:induction false} ValidItemsExact(items: seq<ImportItem>)
    ensures forall x :: x in ValidItems(items) <==> x in items && IsValid(x)
  {
    if items != [] {
      ValidItemsExact(items[1..]);
      assert items == [items[0]] + items[1..];
    }
  }

  /** The per-row message for the row reported at `line`. */
  function RowMessage(line: nat, x: ImportItem): string {
    "Ligne " + NatText(line) + MessageTail(x)
  }

  /** The part of a row message after the line number. */
  function MessageTail(x: ImportItem): (s: string)
    ensures |s| > 0 && s[0] == ' '
  {
    " : " + (if x.name == "" then "(sans nom)" else x.name) + " — " + x.error
  }

  /** Messages for different lines differ. */
  lemma {:induction false} RowMessageLine(a: nat, b: nat, x: ImportItem, y: ImportItem)
    requires a != b
    ensures RowMessage(a, x) != RowMessage(b, y)
  {
    var ta, tb := NatText(a), NatText(b);
    var sa, sb := ta + MessageTail(x), tb + MessageTail(y);
    assert RowMessage(a, x) == "Ligne " + sa;
    assert RowMessage(b, y) == "Ligne " + sb;
    if sa == sb {
      TailAfterDigits(ta, MessageTail(x));
      TailAfterDigits(tb, MessageTail(y));
      DigitRunPrefix(ta, tb, sa, sb);
    } else {
      SamePrefixDiffer("Ligne ", sa, sb);
    }
  }

  /** A digit run followed by a tail that opens with a space. */
  lemma {:induction false} TailAfterDigits(t: string, tail: string)
    requires |tail| > 0 && tail[0] == ' '
    ensures |t| < |t + tail| && (t + tail)[..|t|] == t && (t + tail)[|t|] == ' '
  {
  }

  /** Texts that differ still differ behind a common prefix. */
  lemma {:induction false} SamePrefixDiffer(p: string, sa: string, sb: string)
    requires sa != sb
    ensures p + sa != p + sb
  {
    assert (p + sa)[|p|..] == sa && (p + sb)[|p|..] == sb;
  }

  /** Two digit strings each followed by a space cannot begin the same text
      unless they are equal. */
  lemma {:induction false} DigitRunPrefix(ta: string, tb: string, sa: string, sb: string)
    requires AllDigits(ta) && AllDigits(tb) && ta != [] && tb != []
    requires |ta| < |sa| && sa[..|ta|] == ta && sa[|ta|] == ' '
    requires |tb| < |sb| && sb[..|tb|] == tb && sb[|tb|] == ' '
    requires sa == sb
    ensures ta == tb
  {
    if |ta| < |tb| {
      assert false;
    } else if |tb| < |ta| {
      assert false;
    }
  }

  /** The global notice that the preview holds only the first 200 records. */
  function TruncationNotice(count: nat): string {
    "Aperçu limité à 200 lignes (le fichier en contient " + NatText(count) + ")."
  }

  /** The first 200 records, validated. */
  function StageItems(records: seq<Record>): (items: seq<ImportItem>)
    ensures |items| == Min(|records|, 200)
    ensures forall i :: 0 <= i < |items| ==> items[i] == ValidateRow(records[i])
  {
    var n := Min(|records|, 200);
    seq(n, i requires 0 <= i < n => ValidateRow(records[i]))
  }

  function Notices(count: nat): (ns: seq<string>)
    ensures |ns| <= 1
    ensures count > 200 <==> ns == [TruncationNotice(count)]
    ensures count <= 200 <==> ns == []
  {
    if count > 200 then [TruncationNotice(count)] else []
  }

  /** The per-row messages as written: the k-th invalid row (from 0) is
      reported as "Ligne k+2", whatever its position in the file. */
  function RowMessages(items: seq<ImportItem>): (msgs: seq<string>)
    ensures |msgs| == Min(|InvalidItems(items)|, 50)
    ensures forall k :: 0 <= k < |msgs| ==> msgs[k] == RowMessage(k + 2, InvalidItems(items)[k])
  {
    var bad := InvalidItems(items);
    var shown := Min(|bad|, 50);
    seq(shown, k requires 0 <= k < shown => RowMessage(k + 2, bad[k]))
  }

  /** The per-row messages with each invalid row reported at its line in the
      file: the header is line 1, so the row at index i is line i + 2. The
      first 50 invalid rows are reported, in file order. */
  function RowMessagesByLine(items: seq<ImportItem>): (msgs: seq<string>)
    ensures var idx := InvalidIndices(items, 0);
      && |msgs| == Min(|idx|, 50)
      && forall k :: 0 <= k < |msgs| ==> msgs[k] == RowMessage(idx[k] + 2, items[idx[k]])
  {
    var idx := InvalidIndices(items, 0);
    var shown := Min(|idx|, 50);
    seq(shown, k requires 0 <= k < shown => RowMessage(idx[k] + 2, items[idx[k]]))
  }

  /** Every corrected message names an invalid row by its own line. */
  lemma {:induction false} RowMessagesByLineSound(items: seq<ImportItem>)
    ensures forall k :: 0 <= k < |RowMessagesByLine(items)| ==>
      exists i :: 0 <= i < |items| && !IsValid(items[i]) && RowMessagesByLine(items)[k] == RowMessage(i + 2, items[i])
  {
    var idx := InvalidIndices(items, 0);
    var msgs := RowMessagesByLine(items);
    forall k | 0 <= k < |msgs|
      ensures exists i :: 0 <= i < |items| && !IsValid(items[i]) && msgs[k] == RowMessage(i + 2, items[i])
    {
      assert 0 <= idx[k] < |items| && !IsValid(items[idx[k]]);
    }
  }

  /** A valid row followed by an invalid one: the invalid row sits on line 3
      of the file, the message as written says line 2. */
  lemma {:induction false} RowMessagesMisnumber()
    ensures var good := ImportItem("a", "b", "PLAT", 100, false, false, false, false, Some(0.0), "");
      var bad := ImportItem("", "", "PLAT", 100, false, false, false, false, Some(0.0), "Nom manquant");
      && RowMessages([good, bad]) == [RowMessage(2, bad)]
      && RowMessagesByLine([good, bad]) == [RowMessage(3, bad)]
      && RowMessage(2, bad) != RowMessage(3, bad)
  {
    var good := ImportItem("a", "b", "PLAT", 100, false, false, false, false, Some(0.0), "");
    var bad := ImportItem("", "", "PLAT", 100, false, false, false, false, Some(0.0), "Nom manquant");
    var items := [good, bad];
    assert items[1..] == [bad] && [bad][1..] == [];
    assert InvalidItems(items) == [bad];
    assert InvalidIndices(items, 2) == [];
    assert InvalidIndices(items, 1) == [1];
    assert InvalidIndices(items, 0) == [1];
    RowMessageLine(2, 3, bad, bad);
  }

  /** `importPreview` as written: the first 200 records validated, the
      valid count, and the notices followed by the per-row messages
      numbered by `RowMessages`. */
  function StagePreview(records: seq<Record>): (p: Preview)
    ensures p.items == StageItems(records) && p.total == |p.items|
    ensures p.ok == |ValidItems(p.items)| && p.total - p.ok == |InvalidItems(p.items)|
    ensures p.errors == Notices(|records|) + RowMessages(p.items)
  {
    var items := StageItems(records);
    Preview(|items|, |ValidItems(items)|, Notices(|records|) + RowMessages(items), items)
  }

  /** `importPreview` as evidently intended, with each invalid row reported
      at its own line of the file. */
  function StagePreviewByLine(records: seq<Record>): (p: Preview)
    ensures p.items == StageItems(records) && p.total == |p.items|
    ensures p.ok == |ValidItems(p.items)| && p.total - p.ok == |InvalidItems(p.items)|
    ensures p.errors == Notices(|records|) + RowMessagesByLine(p.items)
  {
    var items := StageItems(records);
    Preview(|items|, |ValidItems(items)|, Notices(|records|) + RowMessagesByLine(items), items)
  }

  /* ---------------- import: the session slot ---------------- */

  /** The `importPreview` session slot. */
  datatype ImportState = Idle | Previewed(preview: Preview)

  /** What the upload step produced. */
  datatype UploadResult =
    | UploadRejected       // multer refused the file (size limit and the like)
    | NoFile               // the form carried no file
    | Unreadable           // reading the stored upload failed
    | Malformed            // the CSV parser threw
    | Parsed(records: seq<Record>)

  datatype UploadResponse = FileRefused400 | RedirectToImportForm | ReadError500 | InvalidCsv400 | RedirectToPreview

  /** `importPreview`: a parse failure empties the slot, a parsed file
      replaces whatever was staged, and the earlier failures leave the slot
      as it was. */
  function OnUpload(s: ImportState, u: UploadResult): (r: (ImportState, UploadResponse))
    ensures u.Parsed? ==> r.0 == Previewed(StagePreview(u.records)) && r.1 == RedirectToPreview
    ensures u.Malformed? ==> r.0 == Idle && r.1 == InvalidCsv400
    ensures u.UploadRejected? ==> r == (s, FileRefused400)
    ensures u.NoFile? ==> r == (s, RedirectToImportForm)
    ensures u.Unreadable? ==> r == (s, ReadError500)
  {
    match u
    case UploadRejected => (s, FileRefused400)
    case NoFile => (s, RedirectToImportForm)
    case Unreadable => (s, ReadError500)
    case Malformed => (Idle, InvalidCsv400)
    case Parsed(records) => (Previewed(StagePreview(records)), RedirectToPreview)
  }

  /** `importCancel`: the slot is emptied whatever it held. */
  function OnCancel(s: ImportState): (r: ImportState)
    ensures r.Idle?
  {
    Idle
  }

  /** A visitor's action on the import pages. */
  datatype ImportEvent = Upload(result: UploadResult) | Cancel

  function Step(s: ImportState, e: ImportEvent): ImportState {
    match e
    case Upload(u) => OnUpload(s, u).0
    case Cancel => OnCancel(s)
  }

  /** The slot after a sequence of actions, applied in order. */
  function Run(s: ImportState, es: seq<ImportEvent>): ImportState
    decreases |es|
  {
    if es == [] then s else Run(Step(s, es[0]), es[1..])
  }

  /** The slot as the last action that sets it decides: a cancel or an
      unparsable file empties it, a parsed file stages its preview, and an
      upload that failed earlier leaves what came before. */
  function LastStaged(s: ImportState, es: seq<ImportEvent>): ImportState
    decreases |es|
  {
    if es == [] then s
    else
      match es[|es| - 1]
      case Cancel => Idle
      case Upload(Malformed) => Idle
      case Upload(Parsed(records)) => Previewed(StagePreview(records))
      case Upload(_) => LastStaged(s, es[..|es| - 1])
  }

  /** Reading the actions from the back agrees with taking the first one. */
  lemma {:induction false} LastStagedCons(s: ImportState, e: ImportEvent, es: seq<ImportEvent>)
    ensures LastStaged(Step(s, e), es) == LastStaged(s, [e] + es)
    decreases |es|
  {
    var w := [e] + es;
    if es == [] {
      assert w[..0] == [];
    } else {
      assert w[|w| - 1] == es[|es| - 1];
      assert w[..|w| - 1] == [e] + es[..|es| - 1];
      LastStagedCons(s, e, es[..|es| - 1]);
    }
  }

  /** The slot after any sequence of uploads and cancels is the one the last
      deciding action left. */
  lemma {:induction false} RunStaged(s: ImportState, es: seq<ImportEvent>)
    ensures Run(s, es) == LastStaged(s, es)
    decreases |es|
  {
    if es != [] {
      RunStaged(Step(s, es[0]), es[1..]);
      LastStagedCons(s, es[0], es[1..]);
      assert [es[0]] + es[1..] == es;
    }
  }

  /** Starting from an empty slot, the slot is empty or holds the preview,
      as written, of a file that was uploaded and parsed. */
  lemma {:induction false} SlotHoldsUpload(es: seq<ImportEvent>)
    ensures Run(Idle, es) == Idle
      || exists rs :: Upload(Parsed(rs)) in es && Run(Idle, es) == Previewed(StagePreview(rs))
  {
    RunStaged(Idle, es);
    LastStagedParsed(es);
    LastParsedUploaded(es);
    if LastParsed(es).Some? {
      assert Run(Idle, es) == Previewed(StagePreview(LastParsed(es).value));
      var j :| 0 <= j < |es| && es[j] == Upload(Parsed(LastParsed(es).value));
      assert Upload(Parsed(LastParsed(es).value)) in es;
    }
  }

  /** The file of the last action that sets the slot, if that action was
      a parsed upload. */
  function LastParsed(es: seq<ImportEvent>): Option<seq<Record>>
    decreases |es|
  {
    if es == [] then None
    else
      match es[|es| - 1]
      case Cancel => None
      case Upload(Malformed) => None
      case Upload(Parsed(records)) => Some(records)
      case Upload(_) => LastParsed(es[..|es| - 1])
  }

  /** The slot a deciding file leaves: its preview, or empty for none. */
  function StagedOf(file: Option<seq<Record>>): ImportState {
    match file
    case None => Idle
    case Some(records) => Previewed(StagePreview(records))
  }

  /** The slot reached from an empty one holds the preview of `LastParsed`. */
  lemma {:induction false} LastStagedParsed(es: seq<ImportEvent>)
    ensures LastStaged(Idle, es) == StagedOf(LastParsed(es))
    decreases |es|
  {
    if es != [] {
      var n := |es| - 1;
      match es[n]
      case Cancel =>
      case Upload(u) =>
        if !u.Parsed? && !u.Malformed? {
          LastStagedParsed(es[..n]);
        }
    }
  }

  /** The file `LastParsed` names was uploaded at some index of `es`. */
  lemma {:induction false} LastParsedUploaded(es: seq<ImportEvent>)
    ensures LastParsed(es).Some? ==>
      exists j :: 0 <= j < |es| && es[j] == Upload(Parsed(LastParsed(es).value))
    decreases |es|
  {
    if es != [] {
      var n := |es| - 1;
      var init := es[..n];
      if es[n].Upload? && !es[n].result.Parsed? && !es[n].result.Malformed? {
        LastParsedUploaded(init);
        if LastParsed(init).Some? {
          var j :| 0 <= j < n && init[j] == Upload(Parsed(LastParsed(init).value));
          assert es[j] == init[j];
        }
      }
    }
  }

  datatype ConfirmResponse = NoPreview | NothingToImport | InsertFailed(inserted: nat) | Imported(count: nat)

  /** The object `importConfirm` passes to `DishModel.create` for a staged
      row; a missing position is passed as 0. */
  function ItemData(x: ImportItem): DishModel.DishData {
    DishModel.DishData(
      x.name, x.description, x.priceCents, x.category,
      x.isVegetarian, x.isHalal, x.isSpicy, x.isAvailable, x.position.GetOr(0.0))
  }

  /** The values `importConfirm` hands to `create` for a staged row: the
      flags as 0/1, an empty description as NULL and a missing position as 0. */
  function ConfirmValues(x: ImportItem): (v: DishModel.InsertValues)
    ensures v.name == x.name && v.category == x.category && v.priceCents == x.priceCents
    ensures v.description.None? <==> x.description == ""
    ensures v.description.Some? ==> v.description.value == x.description
    ensures v.position == x.position.GetOr(0.0)
    ensures v.isAvailable in {0, 1} && (v.isAvailable == 1 <==> x.isAvailable)
    ensures v.isVegetarian in {0, 1} && (v.isVegetarian == 1 <==> x.isVegetarian)
    ensures v.isHalal in {0, 1} && (v.isHalal == 1 <==> x.isHalal)
    ensures v.isSpicy in {0, 1} && (v.isSpicy == 1 <==> x.isSpicy)
  {
    DishModel.CreateValues(ItemData(x))
  }

  /** Confirming row by row stores the same rows as one `bulkInsert` of
      the valid rows would. */
  lemma {:induction false} ConfirmAsBulk(valid: seq<ImportItem>)
    requires valid != []
    ensures var bulk := DishModel.BulkInsert(seq(|valid|, k requires 0 <= k < |valid| => ItemData(valid[k])));
      bulk.InsertMany? && bulk.rows == Inserts(valid, |valid|)
  {
    var data := seq(|valid|, k requires 0 <= k < |valid| => ItemData(valid[k]));
    var bulk := DishModel.BulkInsert(data);
    var ins := Inserts(valid, |valid|);
    forall k | 0 <= k < |valid| ensures bulk.rows[k] == ins[k] {
      assert bulk.rows[k] == DishModel.CreateValues(data[k]);
    }
  }

  /** The inserts for the first `n` valid rows, in order. */
  function Inserts(valid: seq<ImportItem>, n: nat): (ins: seq<DishModel.InsertValues>)
    requires n <= |valid|
    ensures |ins| == n
    ensures forall k :: 0 <= k < n ==> ins[k] == ConfirmValues(valid[k])
  {
    if n == 0 then [] else Inserts(valid, n - 1) + [ConfirmValues(valid[n - 1])]
  }

  /** The values handed to `create` read back as the staged row's own
      data, with a missing position as 0. */
  lemma {:induction false} ConfirmReadsBack(x: ImportItem)
    ensures DishModel.DataOf(ConfirmValues(x)) == ItemData(x)
  {
    DishModel.CreateValuesRoundTrip(ItemData(x));
  }

  /** `importConfirm`. `store` is the rows inserted so far; `firstFailure`
      is the index of the first insert the database rejects, if any. Valid
      rows are inserted one by one in their original order; the first
      failure stops the loop and keeps the preview, and the preview is
      cleared only after the last insert succeeded. */
  method Confirm(s: ImportState, store: seq<DishModel.InsertValues>, firstFailure: Option<nat>)
    returns (s': ImportState, store': seq<DishModel.InsertValues>, response: ConfirmResponse)
    ensures s.Idle? ==> s' == s && store' == store && response == NoPreview
    ensures s.Previewed? && ValidItems(s.preview.items) == [] ==>
      s' == s && store' == store && response == NothingToImport
    ensures s.Previewed? && ValidItems(s.preview.items) != [] ==>
      var valid := ValidItems(s.preview.items);
      var n := if firstFailure.Some? && firstFailure.value < |valid| then firstFailure.value else |valid|;
      && store' == store + Inserts(valid, n)
      && (n < |valid| ==> s' == s && response == InsertFailed(n))
      && (n == |valid| ==> s' == Idle && response == Imported(n))
  {
    if s.Idle? {
      return s, store, NoPreview;
    }
    var valid := ValidItems(s.preview.items);
    if valid == [] {
      return s, store, NothingToImport;
    }
    ghost var n := if firstFailure.Some? && firstFailure.value < |valid| then firstFailure.value else |valid|;
    store' := store;
    var i := 0;
    while i < |valid|
      invariant 0 <= i <= n
      invariant store' == store + Inserts(valid, i)
    {
      if firstFailure == Some(i) {
        return s, store', InsertFailed(i);
      }
      store' := store' + [ConfirmValues(valid[i])];
      i := i + 1;
    }
    return Idle, store', Imported(i);
  }

  /* ---------------- export ---------------- */

  /** `csvEscape`: the field between double quotes, each inner quote doubled. */
  function CsvEscape(v: string): (r: string)
    ensures |r| >= |v| + 2 && r[0] == '"' && r[|r| - 1] == '"'
  {
    "\"" + ReplaceAll(v, '"', "\"\"") + "\""
  }

  /** Reading a quoted field back gives the original text. */
  lemma {:induction false} CsvEscapeRoundTrip(v: string)
    ensures CsvUnquote(CsvEscape(v)) == v
  {
    var inner := ReplaceAll(v, '"', "\"\"");
    CollapseDoubled(v);
    var r := CsvEscape(v);
    assert r[1..|r| - 1] == inner;
  }

  /** Reads back a quoted CSV field: the outer quotes are dropped and each
      doubled quote becomes one. */
  function CsvUnquote(field: string): string
    requires |field| >= 2
  {
    Collapse(field[1..|field| - 1])
  }

  function Collapse(s: string): string {
    if |s| >= 2 && s[0] == '"' && s[1] == '"' then "\"" + Collapse(s[2..])
    else if s == [] then []
    else [s[0]] + Collapse(s[1..])
  }

  lemma {:induction false} CollapseDoubled(v: string)
    ensures Collapse(ReplaceAll(v, '"', "\"\"")) == v
  {
    if v != [] {
      var rest := ReplaceAll(v[1..], '"', "\"\"");
      CollapseDoubled(v[1..]);
      if v[0] == '"' {
        assert ReplaceAll(v, '"', "\"\"") == "\"\"" + rest;
        assert ("\"\"" + rest)[2..] == rest;
      } else {
        assert ReplaceAll(v, '"', "\"\"") == [v[0]] + rest;
        assert ([v[0]] + rest)[1..] == rest;
      }
      assert v == [v[0]] + v[1..];
    }
  }

  /** `String(n)` for an integer. */
  function IntText(n: int): string {
    if n < 0 then "-" + NatText(-n) else NatText(n)
  }

  /** The absolute value of an amount in cents. */
  function Magnitude(cents: int): nat {
    if cents < 0 then -cents else cents
  }

  /** `(cents / 100).toFixed(2).replace('.', ',')`. */
  function PriceText(cents: int): (t: string)
    ensures |t| >= 4 && t[|t| - 3] == ','
    ensures t[0] == '-' <==> cents < 0
  {
    Signed(cents < 0, NatText(Magnitude(cents) / 100) + "," + TwoDigits(Magnitude(cents) % 100))
  }

  lemma {:induction false} NoCommaInDigits(s: string)
    requires AllDigits(s)
    ensures ',' !in s && '.' !in s
  {
  }

  /** The digits of the export's price text are worth the price in euros. */
  lemma {:induction false} PriceDigitsValue(m: nat)
    ensures DecimalValue(NatText(m / 100), TwoDigits(m % 100)) == m as real / 100.0
  {
    var whole, frac := NatText(m / 100), TwoDigits(m % 100);
    DigitsValueAppend(whole, frac);
    DecimalValueTwoPlaces(whole, frac);
    assert Pow10(2) == 100;
    assert DigitsValue(whole + frac) == m;
  }

  /** For a non-negative amount, trimming the price text changes nothing and
      replacing its comma by a point gives `whole.frac`. */
  lemma {:induction false} PriceTextDotted(cents: int)
    requires cents >= 0
    ensures ReplaceFirst(Trim(PriceText(cents)), ',', '.')
      == NatText(cents / 100) + "." + TwoDigits(cents % 100)
  {
    var whole, frac := NatText(cents / 100), TwoDigits(cents % 100);
    var text := whole + "," + frac;
    assert PriceText(cents) == text;
    assert text[|text| - 1] == frac[1];
    assert NoEdgeSpace(text);
    NoCommaInDigits(whole);
    ReplaceFirstAt(whole, frac, ',', '.');
  }

  /** `Number` reads the dotted price text as the amount in euros. */
  lemma {:induction false} ParseDottedPrice(m: nat)
    ensures ParseNumber(NatText(m / 100) + "." + TwoDigits(m % 100)) == Some(m as real / 100.0)
  {
    PriceDigitsValue(m);
    ParseDecimal(NatText(m / 100), TwoDigits(m % 100), m as real / 100.0);
  }

  /** Rounding `m / 100` euros back to cents gives `m`. */
  lemma {:induction false} CentsOfPrice(m: nat, amount: Option<real>)
    requires amount == Some(m as real / 100.0)
    ensures CentsOf(amount) == Some(m)
  {
    assert (m as real / 100.0) * 100.0 == m as real;
    RoundInteger(m);
  }

  /** The import's price rule reads back the export's price text of any
      non-negative amount: the exported "12,50" imports as 1250 cents. */
  lemma {:induction false} ImportPriceOfExport(cents: int)
    requires cents >= 0
    ensures ImportPriceCents(PriceText(cents)) == Some(cents)
  {
    PriceTextDotted(cents);
    ParseDottedPrice(cents);
    CentsOfPrice(cents, ParseNumber(ReplaceFirst(Trim(PriceText(cents)), ',', '.')));
  }

  function BoolText(b: bool): string {
    if b then "1" else "0"
  }

  /** The header line as the export writes it. */
  const ExportHeaderLine: string :=
    "id;position;name;description;category;price_eur;is_available;is_vegetarian;is_halal;is_spicy"

  const ExportHeader: seq<string> :=
    ["id", "position", "name", "description", "category", "price_eur",
     "is_available", "is_vegetarian", "is_halal", "is_spicy"]

  /** The ten exported texts of a row, in header order, before quoting. */
  function ExportFields(d: DishModel.Dish): (fs: seq<string>)
    ensures |fs| == |ExportHeader|
  {
    [IntText(d.id), IntText(d.position), d.name, d.description.GetOr(""), d.category,
     PriceText(d.priceCents), BoolText(d.isAvailable), BoolText(d.isVegetarian),
     BoolText(d.isHalal), BoolText(d.isSpicy)]
  }

  /** One exported line: every field quoted, joined by ';'. */
  function ExportLine(d: DishModel.Dish): (line: string)
    ensures |line| >= 2 && line[0] == '"'
  {
    var fs := ExportFields(d);
    Join(seq(|fs|, i requires 0 <= i < |fs| => CsvEscape(fs[i])), ";")
  }

  /** An exported line is the ten quoted fields in header order, with ';'
      between neighbours. */
  lemma {:induction false} ExportLineFields(d: DishModel.Dish, fs: seq<string>)
    requires fs == ExportFields(d)
    ensures ExportLine(d) == CsvEscape(fs[0]) + ";" + CsvEscape(fs[1]) + ";" + CsvEscape(fs[2])
      + ";" + CsvEscape(fs[3]) + ";" + CsvEscape(fs[4]) + ";" + CsvEscape(fs[5])
      + ";" + CsvEscape(fs[6]) + ";" + CsvEscape(fs[7]) + ";" + CsvEscape(fs[8])
      + ";" + CsvEscape(fs[9])
  {
    var es := seq(|fs|, i requires 0 <= i < |fs| => CsvEscape(fs[i]));
    JoinTen(es, ";");
  }

  /** The header line, then one line per row in query order. */
  function ExportLines(rows: seq<DishModel.Dish>): (lines: seq<string>)
    ensures |lines| == |rows| + 1
    ensures lines[0] == ExportHeaderLine
    ensures forall i :: 0 <= i < |rows| ==> lines[i + 1] == ExportLine(rows[i])
  {
    var body := seq(|rows|, i requires 0 <= i < |rows| => ExportLine(rows[i]));
    var lines := [ExportHeaderLine] + body;
    assert forall i :: 0 <= i < |rows| ==> lines[i + 1] == body[i];
    lines
  }

  /** `exportCsv`'s body: a byte-order mark, then the lines joined by "\n". */
  function ExportCsv(rows: seq<DishModel.Dish>): (csv: string)
    ensures |csv| >= 1 && csv[0] == '\U{FEFF}'
    ensures csv[1..] == Join(ExportLines(rows), "\n")
    ensures rows == [] ==> csv == "\U{FEFF}" + ExportHeaderLine
  {
    "\U{FEFF}" + Join(ExportLines(rows), "\n")
  }

  /** One more row adds exactly its line at the end of the exported lines. */
  lemma {:induction false} ExportLinesSnoc(rows: seq<DishModel.Dish>, d: DishModel.Dish)
    ensures ExportLines(rows + [d]) == ExportLines(rows) + [ExportLine(d)]
  {
    var a := ExportLines(rows + [d]);
    var b := ExportLines(rows) + [ExportLine(d)];
    forall j | 0 <= j < |a|
      ensures a[j] == b[j]
    {
      if j == 0 {
      } else if j <= |rows| {
        assert (rows + [d])[j - 1] == rows[j - 1];
      } else {
        assert (rows + [d])[j - 1] == d;
      }
    }
  }

  /** Exporting one more row appends a newline and that row's line. */
  lemma {:induction false} ExportCsvSnoc(rows: seq<DishModel.Dish>, d: DishModel.Dish)
    ensures ExportCsv(rows + [d]) == ExportCsv(rows) + "\n" + ExportLine(d)
  {
    var lines := ExportLines(rows);
    var line := ExportLine(d);
    ExportLinesSnoc(rows, d);
    JoinSnoc(lines, line, "\n");
    PrefixAppend("\U{FEFF}", Join(lines, "\n"), "\n", line);
    assert ExportCsv(rows + [d]) == "\U{FEFF}" + (Join(lines, "\n") + "\n" + line);
  }

  lemma PrefixAppend<T>(m: seq<T>, a: seq<T>, b: seq<T>, c: seq<T>)
    ensures m + (a + b + c) == m + a + b + c
  {
  }

  /** `exportCsv` queries with the listing's filters and ordering (both read
      by `ParseMenuParams`), unpaginated. */
  function ExportQuery(m: MenuParams): (q: DishModel.Query)
    ensures forall page, total: nat :: q.where == ListPage(m, page, total).query.where
    ensures forall page, total: nat :: q.order == ListPage(m, page, total).query.order
    ensures q.params == q.where.params
  {
    DishModel.ListAdminAll(m.filters, DishModel.SortAndDirection(m.sort, m.dir))
  }

  /** The record a CSV reader returns for a line of ten fields under the
      export's header. */
  function HeaderRecord(fs: seq<string>): Record
    requires |fs| == |ExportHeader|
  {
    map[
      "id" := fs[0], "position" := fs[1], "name" := fs[2], "description" := fs[3],
      "category" := fs[4], "price_eur" := fs[5], "is_available" := fs[6],
      "is_vegetarian" := fs[7], "is_halal" := fs[8], "is_spicy" := fs[9]]
  }

  /** The record a CSV reader returns for an exported line, keyed by header. */
  function ExportRecord(d: DishModel.Dish): Record {
    HeaderRecord(ExportFields(d))
  }

  /** The header name at `i` keys the field at `i`. */
  lemma {:induction false} HeaderKeyAt(fs: seq<string>, i: nat)
    requires |fs| == |ExportHeader| && i < |ExportHeader|
    ensures ExportHeader[i] in HeaderRecord(fs) && HeaderRecord(fs)[ExportHeader[i]] == fs[i]
  {
    var r := HeaderRecord(fs);
    if i == 0 { assert ExportHeader[0] == "id" && r["id"] == fs[0]; }
    else if i == 1 { assert ExportHeader[1] == "position" && r["position"] == fs[1]; }
    else if i == 2 { assert ExportHeader[2] == "name" && r["name"] == fs[2]; }
    else if i == 3 { assert ExportHeader[3] == "description" && r["description"] == fs[3]; }
    else if i == 4 { assert ExportHeader[4] == "category" && r["category"] == fs[4]; }
    else if i == 5 { assert ExportHeader[5] == "price_eur" && r["price_eur"] == fs[5]; }
    else if i == 6 { assert ExportHeader[6] == "is_available" && r["is_available"] == fs[6]; }
    else if i == 7 { assert ExportHeader[7] == "is_vegetarian" && r["is_vegetarian"] == fs[7]; }
    else if i == 8 { assert ExportHeader[8] == "is_halal" && r["is_halal"] == fs[8]; }
    else { assert ExportHeader[9] == "is_spicy" && r["is_spicy"] == fs[9]; }
  }

  /** Every header name keys the exported text written under it. */
  lemma {:induction false} ExportRecordKeyed(d: DishModel.Dish)
    ensures forall i :: 0 <= i < |ExportHeader| ==>
      ExportHeader[i] in ExportRecord(d) && ExportRecord(d)[ExportHeader[i]] == ExportFields(d)[i]
  {
    var fs := ExportFields(d);
    forall i | 0 <= i < |ExportHeader|
      ensures ExportHeader[i] in HeaderRecord(fs) && HeaderRecord(fs)[ExportHeader[i]] == fs[i]
    {
      HeaderKeyAt(fs, i);
    }
  }

  /** A listed category reads back as itself. */
  lemma {:induction false} CategoryReadsBack(c: string)
    requires c in Categories
    ensures ToUpper(Trim(c)) == c
  {
    assert NoEdgeSpace(c);
    assert forall i :: 0 <= i < |c| ==> 'A' <= c[i] <= 'Z';
    ToUpperIdentity(c);
  }

  /** An exported flag reads back as the flag. */
  lemma {:induction false} FlagReadsBack(b: bool)
    ensures ImportFlag(BoolText(b)) <==> b
  {
    assert NoEdgeSpace("1") && NoEdgeSpace("0");
  }

  /** An exported non-negative position reads back as its value. */
  lemma {:induction false} PositionReadsBack(n: int)
    requires n >= 0
    ensures ImportPosition(IntText(n)) == Some(n as real)
  {
    var s := NatText(n);
    assert IntText(n) == s;
    assert NoEdgeSpace(s);
    ParseNumberNatText(n);
  }

  /** The fields a well-formed dish's export reads back as. */
  function DishFields(d: DishModel.Dish): RowFields {
    RowFields(
      d.name, d.description.GetOr(""), d.category, Some(d.priceCents), Some(d.position as real),
      d.isAvailable, d.isVegetarian, d.isHalal, d.isSpicy)
  }

  /** A row read as a dish's values is staged as that dish, without error,
      when the dish satisfies the import's rules. */
  lemma {:induction false} ValidateDishFields(d: DishModel.Dish)
    requires d.name != "" && d.description.Some? && d.description.value != ""
    requires d.category in Categories && d.priceCents > 0 && d.position >= 0
    ensures Validate(DishFields(d)) == ImportItem(
      d.name, d.description.value, d.category, d.priceCents,
      d.isAvailable, d.isVegetarian, d.isHalal, d.isSpicy, Some(d.position as real), "")
  {
    assert Acceptable(DishFields(d));
  }

  lemma {:induction false} ExportedName(d: DishModel.Dish)
    requires NoEdgeSpace(d.name)
    ensures Trim(Field(ExportRecord(d), "name")) == d.name
  {
    assert Field(ExportRecord(d), "name") == d.name;
  }

  lemma {:induction false} ExportedDescription(d: DishModel.Dish)
    requires d.description.Some? && NoEdgeSpace(d.description.value)
    ensures Trim(Field(ExportRecord(d), "description")) == d.description.value
  {
    assert Field(ExportRecord(d), "description") == d.description.value;
  }

  lemma {:induction false} ExportedCategory(d: DishModel.Dish)
    requires d.category in Categories
    ensures RowCategory(ExportRecord(d)) == d.category
  {
    assert Field(ExportRecord(d), "category") == d.category;
    CategoryReadsBack(d.category);
  }

  lemma {:induction false} ExportedPrice(d: DishModel.Dish)
    requires d.priceCents >= 0
    ensures ImportPriceCents(Field(ExportRecord(d), "price_eur")) == Some(d.priceCents)
  {
    assert Field(ExportRecord(d), "price_eur") == PriceText(d.priceCents);
    ImportPriceOfExport(d.priceCents);
  }

  lemma {:induction false} ExportedPosition(d: DishModel.Dish)
    requires d.position >= 0
    ensures ImportPosition(Field(ExportRecord(d), "position")) == Some(d.position as real)
  {
    assert Field(ExportRecord(d), "position") == IntText(d.position);
    PositionReadsBack(d.position);
  }

  /** Each exported flag column reads back as its flag. */
  lemma {:induction false} ExportedFlag(d: DishModel.Dish, key: string, b: bool)
    requires || (key == "is_available" && b == d.isAvailable)
             || (key == "is_vegetarian" && b == d.isVegetarian)
             || (key == "is_halal" && b == d.isHalal)
             || (key == "is_spicy" && b == d.isSpicy)
    ensures ImportFlag(Field(ExportRecord(d), key)) <==> b
  {
    if key == "is_available" {
      assert Field(ExportRecord(d), key) == BoolText(d.isAvailable);
    } else if key == "is_vegetarian" {
      assert Field(ExportRecord(d), key) == BoolText(d.isVegetarian);
    } else if key == "is_halal" {
      assert Field(ExportRecord(d), key) == BoolText(d.isHalal);
    } else {
      assert Field(ExportRecord(d), key) == BoolText(d.isSpicy);
    }
    FlagReadsBack(b);
  }

  /** A record whose columns each read as the corresponding field of `f`
      is read as `f`. */
  lemma {:induction false} ReadRowFrom(r: Record, f: RowFields)
    requires Trim(Field(r, "name")) == f.name && Trim(Field(r, "description")) == f.description
    requires RowCategory(r) == f.category
    requires ImportPriceCents(Field(r, "price_eur")) == f.price
    requires ImportPosition(Field(r, "position")) == f.position
    requires ImportFlag(Field(r, "is_available")) == f.isAvailable
    requires ImportFlag(Field(r, "is_vegetarian")) == f.isVegetarian
    requires ImportFlag(Field(r, "is_halal")) == f.isHalal
    requires ImportFlag(Field(r, "is_spicy")) == f.isSpicy
    ensures ReadRow(r) == f
  {
  }

  /** A well-formed row's exported line reads back as the row's values. */
  lemma {:induction false} ExportReadsBack(d: DishModel.Dish)
    requires NoEdgeSpace(d.name)
    requires d.description.Some? && NoEdgeSpace(d.description.value)
    requires d.category in Categories
    requires d.priceCents >= 0 && d.position >= 0
    ensures ReadRow(ExportRecord(d)) == DishFields(d)
  {
    ExportedName(d);
    ExportedDescription(d);
    ExportedCategory(d);
    ExportedPrice(d);
    ExportedPosition(d);
    ExportedFlag(d, "is_available", d.isAvailable);
    ExportedFlag(d, "is_vegetarian", d.isVegetarian);
    ExportedFlag(d, "is_halal", d.isHalal);
    ExportedFlag(d, "is_spicy", d.isSpicy);
    ReadRowFrom(ExportRecord(d), DishFields(d));
  }

  /** Exporting a well-formed row and importing the line again yields a
      valid row with the same name, description, category, price, flags and
      position. */
  lemma {:induction false} ExportThenImport(d: DishModel.Dish)
    requires d.name != "" && NoEdgeSpace(d.name)
    requires d.description.Some? && d.description.value != "" && NoEdgeSpace(d.description.value)
    requires d.category in Categories
    requires d.priceCents > 0 && d.position >= 0
    ensures ValidateRow(ExportRecord(d)) == ImportItem(
      d.name, d.description.value, d.category, d.priceCents,
      d.isAvailable, d.isVegetarian, d.isHalal, d.isSpicy, Some(d.position as real), "")
  {
    ExportReadsBack(d);
    ValidateDishFields(d);
  }
}

=== FILE: dish_model.dfy ===
/** The menu query builder and insert coercions of models/DishModel.js. The
    WHERE clause is kept as a list of conditions with its parameter list,
    and the ORDER BY clause as a list of sort keys, rather than SQL text. */
module DishModel {
  import opened Wrappers
  import opened Text

  /** A row of the `dishes` table. */
  datatype Dish = Dish(
    id: int, name: string, description: Option<string>, priceCents: int, category: string,
    isVegetarian: bool, isHalal: bool, isSpicy: bool, isAvailable: bool, position: int)

  /** The filter record handed to the builder. A flag is `Some(n)` when its
      JavaScript value is the integer `n` and `None` when it is not of type
      number; `NaN` and fractional numbers are not represented. */
  datatype Filters = Filters(
    search: Option<string>, veg: Option<int>, halal: Option<int>, spicy: Option<int>,
    available: Option<int>)

  datatype FlagColumn = Vegetarian | Halal | Spicy | Available

  /** One conjunct of the WHERE clause: the three-column LIKE search, or `flag = 1`. */
  datatype Condition = SearchLike(pattern: string) | FlagSet(column: FlagColumn)

  /** A value bound to a `?` placeholder; `NaNParam` is `Number(x)` of a non-number. */
  datatype Param = TextParam(text: string) | NumParam(n: int) | NaNParam

  /** The conditions, joined by AND, and the parameters of their placeholders. */
  datatype Where = Where(conditions: seq<Condition>, params: seq<Param>)

  function FlagValue(f: Filters, col: FlagColumn): Option<int> {
    match col
    case Vegetarian => f.veg
    case Halal => f.halal
    case Spicy => f.spicy
    case Available => f.available
  }

  function DishFlag(d: Dish, col: FlagColumn): bool {
    match col
    case Vegetarian => d.isVegetarian
    case Halal => d.isHalal
    case Spicy => d.isSpicy
    case Available => d.isAvailable
  }

  /** The search filter applies when the search text is present and not blank. */
  predicate SearchActive(f: Filters) {
    f.search.Some? && !IsBlank(f.search.value)
  }

  /** The LIKE pattern for a search text: the trimmed text between `%` wildcards. */
  function LikePattern(search: string): string {
    "%" + Trim(search) + "%"
  }

  function FlagCondition(v: Option<int>, col: FlagColumn): seq<Condition> {
    if v == Some(1) then [FlagSet(col)] else []
  }

  /** The columns `buildWhere` checks, in its order. */
  const FlagOrder: seq<FlagColumn> := [Vegetarian, Halal, Spicy, Available]

  lemma {:induction false} FlagListed(col: FlagColumn)
    ensures col in FlagOrder
  {
    if col.Vegetarian? {
      assert FlagOrder[0] == col;
    } else if col.Halal? {
      assert FlagOrder[1] == col;
    } else if col.Spicy? {
      assert FlagOrder[2] == col;
    } else {
      assert FlagOrder[3] == col;
    }
  }

  /** One condition for each listed column whose flag is exactly 1, in list order. */
  function FlagConditionsOf(f: Filters, cols: seq<FlagColumn>): (cs: seq<Condition>)
    ensures forall i :: 0 <= i < |cs| ==> cs[i].FlagSet?
    ensures forall col :: FlagSet(col) in cs <==> col in cols && FlagValue(f, col) == Some(1)
  {
    if cols == [] then []
    else
      var rest := FlagConditionsOf(f, cols[1..]);
      assert forall col :: col in cols <==> col == cols[0] || col in cols[1..];
      FlagCondition(FlagValue(f, cols[0]), cols[0]) + rest
  }

  /** The flag conditions, in the order vegetarian, halal, spicy, available. */
  function FlagConditions(f: Filters): (cs: seq<Condition>)
    ensures forall i :: 0 <= i < |cs| ==> cs[i].FlagSet?
    ensures forall col :: FlagSet(col) in cs <==> FlagValue(f, col) == Some(1)
    ensures cs == [] <==> forall col :: FlagValue(f, col) != Some(1)
  {
    var cs := FlagConditionsOf(f, FlagOrder);
    forall col ensures col in FlagOrder {
      FlagListed(col);
    }
    assert cs != [] ==> FlagSet(cs[0].column) in cs;
    cs
  }

  /** `buildWhere`: the search condition (with three copies of its pattern as
      parameters) when the search is not blank, then one condition per flag
      whose value is exactly the number 1. */
  function BuildWhere(f: Filters): (w: Where)
    ensures w.conditions == [] <==> !SearchActive(f) && forall col :: FlagValue(f, col) != Some(1)
    ensures w.conditions == [] ==> w.params == []
    ensures SearchActive(f) ==>
      && w.conditions[0] == SearchLike(LikePattern(f.search.value))
      && w.params == [TextParam(LikePattern(f.search.value)), TextParam(LikePattern(f.search.value)),
                      TextParam(LikePattern(f.search.value))]
    ensures !SearchActive(f) ==> w.params == []
    ensures forall i :: 0 <= i < |w.conditions| && w.conditions[i].SearchLike? ==> i == 0 && SearchActive(f)
    ensures forall col :: FlagSet(col) in w.conditions <==> FlagValue(f, col) == Some(1)
  {
    var search := if SearchActive(f) then [SearchLike(LikePattern(f.search.value))] else [];
    var params := if SearchActive(f) then
        var p := TextParam(LikePattern(f.search.value)); [p, p, p]
      else [];
    var flags := FlagConditions(f);
    var cs := search + flags;
    assert forall col :: FlagSet(col) in cs <==> FlagSet(col) in flags;
    Where(cs, params)
  }

  /** One condition holds of a row. `like(value, pattern)` stands for SQL's
      LIKE, whose case sensitivity depends on the database collation; a NULL
      description never matches. */
  predicate Holds(d: Dish, c: Condition, like: (string, string) -> bool) {
    match c
    case SearchLike(p) =>
      like(d.name, p) || (d.description.Some? && like(d.description.value, p)) || like(d.category, p)
    case FlagSet(col) => DishFlag(d, col)
  }

  /** A row is selected when every condition of the clause holds (AND). */
  predicate Matches(d: Dish, conditions: seq<Condition>, like: (string, string) -> bool) {
    forall i :: 0 <= i < |conditions| ==> Holds(d, conditions[i], like)
  }

  /** The filter semantics stated directly on the filter record. */
  predicate SatisfiesFilters(d: Dish, f: Filters, like: (string, string) -> bool) {
    && (SearchActive(f) ==> Holds(d, SearchLike(LikePattern(f.search.value)), like))
    && (f.veg == Some(1) ==> d.isVegetarian)
    && (f.halal == Some(1) ==> d.isHalal)
    && (f.spicy == Some(1) ==> d.isSpicy)
    && (f.available == Some(1) ==> d.isAvailable)
  }

  /** A row that matches the clause satisfies every active filter. */
  lemma {:induction false} MatchesSatisfies(d: Dish, f: Filters, cs: seq<Condition>, like: (string, string) -> bool)
    requires forall col :: FlagSet(col) in cs <==> FlagValue(f, col) == Some(1)
    requires SearchActive(f) ==> |cs| > 0 && cs[0] == SearchLike(LikePattern(f.search.value))
    requires Matches(d, cs, like)
    ensures SatisfiesFilters(d, f, like)
  {
    forall col | FlagValue(f, col) == Some(1) ensures DishFlag(d, col) {
      var i :| 0 <= i < |cs| && cs[i] == FlagSet(col);
      assert Holds(d, cs[i], like);
    }
    if SearchActive(f) {
      assert Holds(d, cs[0], like);
    }
    assert DishFlag(d, Vegetarian) == d.isVegetarian && DishFlag(d, Halal) == d.isHalal;
    assert DishFlag(d, Spicy) == d.isSpicy && DishFlag(d, Available) == d.isAvailable;
  }

  /** A row that satisfies every active filter matches the clause. */
  lemma {:induction false} SatisfiesMatches(d: Dish, f: Filters, cs: seq<Condition>, like: (string, string) -> bool)
    requires forall col :: FlagSet(col) in cs <==> FlagValue(f, col) == Some(1)
    requires forall i :: 0 <= i < |cs| && cs[i].SearchLike? ==> i == 0 && SearchActive(f)
    requires SearchActive(f) ==> |cs| > 0 && cs[0] == SearchLike(LikePattern(f.search.value))
    requires SatisfiesFilters(d, f, like)
    ensures Matches(d, cs, like)
  {
    forall i | 0 <= i < |cs| ensures Holds(d, cs[i], like) {
      if cs[i].FlagSet? {
        var col := cs[i].column;
        assert FlagSet(col) in cs;
        assert FlagValue(f, col) == Some(1);
      }
    }
  }

  /** A row matches the built clause exactly when it satisfies every active filter. */
  lemma {:induction false} BuildWhereSound(d: Dish, f: Filters, like: (string, string) -> bool)
    ensures Matches(d, BuildWhere(f).conditions, like) <==> SatisfiesFilters(d, f, like)
  {
    var cs := BuildWhere(f).conditions;
    if Matches(d, cs, like) {
      MatchesSatisfies(d, f, cs, like);
    }
    if SatisfiesFilters(d, f, like) {
      SatisfiesMatches(d, f, cs, like);
    }
  }

  /* ---------------- ORDER BY ---------------- */

  /** The nine sortable columns. */
  datatype SortColumn =
    | Id | Position | Name | Category | PriceCents | IsAvailable | IsVegetarian | IsHalal | IsSpicy

  function ColumnName(c: SortColumn): string {
    match c
    case Id => "id"
    case Position => "position"
    case Name => "name"
    case Category => "category"
    case PriceCents => "price_cents"
    case IsAvailable => "is_available"
    case IsVegetarian => "is_vegetarian"
    case IsHalal => "is_halal"
    case IsSpicy => "is_spicy"
  }

  /** The allow-list of column names that may reach the ORDER BY clause. */
  const AllowedSort: set<string> :=
    {"id", "position", "name", "category", "price_cents", "is_available", "is_vegetarian",
     "is_halal", "is_spicy"}

  /** The column a requested sort name selects: itself when allowed, `position` otherwise. */
  function SortColumnOf(sort: string): (c: SortColumn)
    ensures ColumnName(c) in AllowedSort
    ensures sort in AllowedSort ==> ColumnName(c) == sort
    ensures sort !in AllowedSort ==> c == Position
  {
    if sort == "id" then Id
    else if sort == "name" then Name
    else if sort == "category" then Category
    else if sort == "price_cents" then PriceCents
    else if sort == "is_available" then IsAvailable
    else if sort == "is_vegetarian" then IsVegetarian
    else if sort == "is_halal" then IsHalal
    else if sort == "is_spicy" then IsSpicy
    else Position
  }

  datatype Direction = Asc | Desc

  /** DESC exactly when the lower-cased text is "desc", ASC for anything else. */
  function DirectionOf(dir: string): (d: Direction)
    ensures d == Desc <==> ToLower(dir) == "desc"
  {
    if ToLower(dir) == "desc" then Desc else Asc
  }

  datatype OrderKey = OrderKey(column: SortColumn, direction: Direction)

  /** `getOrderBy`: the validated column in the normalised direction, then
      `id ASC` as the tie-break. */
  function OrderBy(sort: string, dir: string): (keys: seq<OrderKey>)
    ensures |keys| == 2
    ensures ColumnName(keys[0].column) in AllowedSort
    ensures sort in AllowedSort ==> ColumnName(keys[0].column) == sort
    ensures sort !in AllowedSort ==> keys[0].column == Position
    ensures keys[0].direction == Desc <==> ToLower(dir) == "desc"
    ensures keys[1] == OrderKey(Id, Asc)
  {
    [OrderKey(SortColumnOf(sort), DirectionOf(dir)), OrderKey(Id, Asc)]
  }

  datatype Ordering = Before | Tie | After

  function CompareInt(a: int, b: int): Ordering {
    if a < b then Before else if a > b then After else Tie
  }

  function Flip(o: Ordering): Ordering {
    match o
    case Before => After
    case Tie => Tie
    case After => Before
  }

  /** Compares two rows on one column; text columns use the database's
      collation, given as `collate`. */
  function CompareOn(c: SortColumn, a: Dish, b: Dish, collate: (string, string) -> Ordering): Ordering {
    match c
    case Id => CompareInt(a.id, b.id)
    case Position => CompareInt(a.position, b.position)
    case Name => collate(a.name, b.name)
    case Category => collate(a.category, b.category)
    case PriceCents => CompareInt(a.priceCents, b.priceCents)
    case IsAvailable => CompareInt(if a.isAvailable then 1 else 0, if b.isAvailable then 1 else 0)
    case IsVegetarian => CompareInt(if a.isVegetarian then 1 else 0, if b.isVegetarian then 1 else 0)
    case IsHalal => CompareInt(if a.isHalal then 1 else 0, if b.isHalal then 1 else 0)
    case IsSpicy => CompareInt(if a.isSpicy then 1 else 0, if b.isSpicy then 1 else 0)
  }

  /** Lexicographic comparison over the sort keys, as ORDER BY applies them. */
  function CompareBy(keys: seq<OrderKey>, a: Dish, b: Dish, collate: (string, string) -> Ordering): Ordering {
    if keys == [] then Tie
    else
      var o := CompareOn(keys[0].column, a, b, collate);
      var o' := if keys[0].direction == Desc then Flip(o) else o;
      if o' != Tie then o' else CompareBy(keys[1..], a, b, collate)
  }

  /** Because of the `id ASC` tie-break, two distinct rows are never tied,
      whatever the chosen column and collation: the listing order is total. */
  lemma OrderByNeverTies(sort: string, dir: string, a: Dish, b: Dish, collate: (string, string) -> Ordering)
    requires a.id != b.id
    ensures CompareBy(OrderBy(sort, dir), a, b, collate) != Tie
  {
    var keys := OrderBy(sort, dir);
    assert keys[1..][1..] == [];
  }

  /* ---------------- listing queries ---------------- */

  /** How the caller passed sorting: the current signature with a sort and a
      direction, or the older one whose fourth argument is the callback. */
  datatype SortArgs = SortAndDirection(sort: string, dir: string) | CallbackOnly

  /** A listing query: its WHERE clause, its ordering and its parameter list. */
  datatype Query = Query(where: Where, order: seq<OrderKey>, params: seq<Param>)

  /** `Number(x)` of a limit or offset that may be `NaN`. */
  function NumberParam(v: Option<int>): Param {
    match v
    case Some(n) => NumParam(n)
    case None => NaNParam
  }

  /** The ordering a caller's sort arguments select. */
  function OrderOf(args: SortArgs): (keys: seq<OrderKey>)
    ensures args.CallbackOnly? ==> keys == [OrderKey(Position, Asc), OrderKey(Id, Asc)]
    ensures args.SortAndDirection? ==> keys == OrderBy(args.sort, args.dir)
  {
    match args
    case SortAndDirection(sort, dir) => OrderBy(sort, dir)
    case CallbackOnly =>
      var keys := OrderBy("position", "asc");
      assert "position" in AllowedSort;
      keys
  }

  /** The filter parameters followed by the limit and the offset. */
  function PagedParams(w: Where, limit: Option<int>, offset: Option<int>): (ps: seq<Param>)
    ensures |ps| == |w.params| + 2
    ensures ps[..|w.params|] == w.params
    ensures ps[|w.params|] == NumberParam(limit)
    ensures ps[|w.params| + 1] == NumberParam(offset)
  {
    var ps := w.params + [NumberParam(limit), NumberParam(offset)];
    assert ps[..|w.params|] == w.params;
    ps
  }

  /** `listAdminPaged`: the filter parameters, then the limit, then the
      offset; the old signature sorts by position ascending. */
  function ListAdminPaged(f: Filters, limit: Option<int>, offset: Option<int>, args: SortArgs): (q: Query)
    ensures q.where == BuildWhere(f)
    ensures |q.params| == |q.where.params| + 2
    ensures q.params[..|q.where.params|] == q.where.params
    ensures q.params[|q.where.params|] == NumberParam(limit)
    ensures q.params[|q.where.params| + 1] == NumberParam(offset)
    ensures args.CallbackOnly? ==> q.order == [OrderKey(Position, Asc), OrderKey(Id, Asc)]
    ensures args.SortAndDirection? ==> q.order == OrderBy(args.sort, args.dir)
  {
    var w := BuildWhere(f);
    Query(w, OrderOf(args), PagedParams(w, limit, offset))
  }

  /** `listAdminAll`: the same filter and ordering with no limit. */
  function ListAdminAll(f: Filters, args: SortArgs): (q: Query)
    ensures q.where == BuildWhere(f) && q.params == q.where.params
    ensures args.CallbackOnly? ==> q.order == [OrderKey(Position, Asc), OrderKey(Id, Asc)]
    ensures args.SortAndDirection? ==> q.order == OrderBy(args.sort, args.dir)
  {
    var w := BuildWhere(f);
    Query(w, OrderOf(args), w.params)
  }

  /** The filters `listPublic` builds its clause from: the caller's, with
      `available` set to 1 when the caller's value is not a number. */
  function PublicFilters(f: Filters): (g: Filters)
    ensures g.search == f.search
    ensures forall col :: col != Available ==> FlagValue(g, col) == FlagValue(f, col)
    ensures f.available.None? ==> g.available == Some(1)
    ensures f.available.Some? ==> g.available == f.available
  {
    var g := if f.available.None? then f.(available := Some(1)) else f;
    assert forall col :: col != Available ==> FlagValue(g, col) == FlagValue(f, col) by {
      forall col | col != Available ensures FlagValue(g, col) == FlagValue(f, col) {
        if col.Vegetarian? {
        } else if col.Halal? {
        } else {
          assert col.Spicy?;
        }
      }
    }
    g
  }

  /** `listPublic`: only available dishes unless the caller gave a numeric
      `available`, ordered by position then id. */
  function ListPublic(f: Filters): (q: Query)
    ensures q.where == BuildWhere(PublicFilters(f))
    ensures FlagSet(Available) in q.where.conditions <==> f.available.None? || f.available == Some(1)
    ensures forall col :: col != Available ==> (FlagSet(col) in q.where.conditions <==> FlagValue(f, col) == Some(1))
    ensures q.order == [OrderKey(Position, Asc), OrderKey(Id, Asc)]
    ensures q.params == q.where.params
  {
    var w := BuildWhere(PublicFilters(f));
    Query(w, [OrderKey(Position, Asc), OrderKey(Id, Asc)], w.params)
  }

  /** A row is listed publicly exactly when it satisfies the caller's
      filters and, when the caller's `available` is not a number, is
      available. */
  lemma {:induction false} ListPublicSound(d: Dish, f: Filters, like: (string, string) -> bool)
    ensures Matches(d, ListPublic(f).where.conditions, like)
            <==> SatisfiesFilters(d, f, like) && (f.available.None? ==> d.isAvailable)
  {
    var g := PublicFilters(f);
    BuildWhereSound(d, g, like);
    assert g.veg == f.veg && g.halal == f.halal && g.spicy == f.spicy by {
      assert FlagValue(g, Vegetarian) == FlagValue(f, Vegetarian);
      assert FlagValue(g, Halal) == FlagValue(f, Halal);
      assert FlagValue(g, Spicy) == FlagValue(f, Spicy);
    }
  }

  /* ---------------- inserts ---------------- */

  /** The record a caller hands to `create` or `bulkInsert`; flags hold the
      truthiness of the caller's values. */
  datatype DishData = DishData(
    name: string, description: string, priceCents: int, category: string,
    isVegetarian: bool, isHalal: bool, isSpicy: bool, isAvailable: bool, position: real)

  /** The values bound to the INSERT's nine placeholders. */
  datatype InsertValues = InsertValues(
    name: string, description: Option<string>, priceCents: int, category: string,
    isVegetarian: int, isHalal: int, isSpicy: int, isAvailable: int, position: real)

  function Bit(b: bool): (n: int)
    ensures n == 0 || n == 1
    ensures n == 1 <==> b
  {
    if b then 1 else 0
  }

  /** `create`'s coercion: an empty description is stored as NULL, each flag
      as 1 or 0, every other field as given. */
  function CreateValues(d: DishData): (v: InsertValues)
    ensures v.description.None? <==> d.description == ""
    ensures v.description.Some? ==> v.description.value == d.description
    ensures v.isVegetarian in {0, 1} && (v.isVegetarian == 1 <==> d.isVegetarian)
    ensures v.isHalal in {0, 1} && (v.isHalal == 1 <==> d.isHalal)
    ensures v.isSpicy in {0, 1} && (v.isSpicy == 1 <==> d.isSpicy)
    ensures v.isAvailable in {0, 1} && (v.isAvailable == 1 <==> d.isAvailable)
    ensures v.name == d.name && v.category == d.category
    ensures v.priceCents == d.priceCents && v.position == d.position
  {
    InsertValues(
      d.name, if d.description == "" then None else Some(d.description), d.priceCents, d.category,
      Bit(d.isVegetarian), Bit(d.isHalal), Bit(d.isSpicy), Bit(d.isAvailable), d.position)
  }

  /** The caller's record read back from the INSERT values: NULL as "" and
      each 0/1 as a flag. */
  function DataOf(v: InsertValues): DishData {
    DishData(
      v.name, v.description.GetOr(""), v.priceCents, v.category,
      v.isVegetarian == 1, v.isHalal == 1, v.isSpicy == 1, v.isAvailable == 1, v.position)
  }

  /** The coercion loses nothing the caller's record says: an empty
      description and NULL both mean no description. */
  lemma {:induction false} CreateValuesRoundTrip(d: DishData)
    ensures DataOf(CreateValues(d)) == d
  {
  }

  datatype BulkResult = NoQuery(affectedRows: nat) | InsertMany(rows: seq<InsertValues>)

  /** `bulkInsert`: an empty list answers `affectedRows 0` without a query;
      otherwise one multi-row INSERT whose rows are coerced as `create` does,
      in the given order. */
  function BulkInsert(items: seq<DishData>): (r: BulkResult)
    ensures items == [] <==> r.NoQuery?
    ensures r.NoQuery? ==> r.affectedRows == 0
    ensures r.InsertMany? ==>
      |r.rows| == |items| && forall i :: 0 <= i < |items| ==> r.rows[i] == CreateValues(items[i])
  {
    if items == [] then NoQuery(0)
    else InsertMany(seq(|items|, i requires 0 <= i < |items| => CreateValues(items[i])))
  }
}

=== FILE: html.dfy ===
/** `escapeHtml` of utils/html.js: the five HTML-significant characters are
    replaced by entities, `&` first, so that no entity is escaped twice. */
module Html {
  import opened Wrappers
  import opened Text

  /** The characters `escapeHtml` replaces. */
  predicate IsSpecial(c: char) {
    c == '&' || c == '<' || c == '>' || c == '"' || c == '\''
  }

  /** The characters that may never appear in escaped text. */
  predicate IsMarkup(c: char) {
    c == '<' || c == '>' || c == '"' || c == '\''
  }

  /** `t` starts with one of the five entities `escapeHtml` writes. */
  predicate BeginsEntity(t: string) {
    || IsPrefix("&amp;", t) || IsPrefix("&lt;", t) || IsPrefix("&gt;", t)
    || IsPrefix("&quot;", t) || IsPrefix("&#039;", t)
  }

  /** Every `&` of `r` is the first character of an entity. */
  predicate AmpersandsBeginEntities(r: string) {
    forall i :: 0 <= i < |r| && r[i] == '&' ==> BeginsEntity(r[i..])
  }

  /** The text that replaces one character of the input. */
  function EscapeChar(c: char): string {
    if c == '&' then "&amp;"
    else if c == '<' then "&lt;"
    else if c == '>' then "&gt;"
    else if c == '"' then "&quot;"
    else if c == '\'' then "&#039;"
    else [c]
  }

  /** A replacement block has its only `&` at its start, and that `&` begins an entity. */
  lemma {:induction false} EscapeCharShape(c: char)
    ensures |EscapeChar(c)| >= 1
    ensures forall i :: 0 <= i < |EscapeChar(c)| ==> !IsMarkup(EscapeChar(c)[i])
    ensures forall i :: 1 <= i < |EscapeChar(c)| ==> EscapeChar(c)[i] != '&'
    ensures EscapeChar(c)[0] == '&' ==> BeginsEntity(EscapeChar(c))
    ensures !IsSpecial(c) ==> EscapeChar(c) == [c]
  {
  }

  /** Prefixing a replacement block keeps every `&` at the start of an entity. */
  lemma {:induction false} AmpersandsAfterBlock(c: char, rest: string)
    requires AmpersandsBeginEntities(rest)
    ensures AmpersandsBeginEntities(EscapeChar(c) + rest)
  {
    var b := EscapeChar(c);
    var r := b + rest;
    EscapeCharShape(c);
    forall i | 0 <= i < |r| && r[i] == '&' ensures BeginsEntity(r[i..]) {
      if i < |b| {
        assert i == 0;
        assert r[0..] == b + rest;
        assert r[..|b|] == b;
      } else {
        assert r[i..] == rest[i - |b|..];
      }
    }
  }

  /** The escaped text: one replacement block per input character. */
  function Escape(s: string): (r: string)
    ensures |r| >= |s|
    ensures forall i :: 0 <= i < |r| ==> !IsMarkup(r[i])
    ensures AmpersandsBeginEntities(r)
    ensures (forall i :: 0 <= i < |s| ==> !IsSpecial(s[i])) ==> r == s
  {
    if s == [] then []
    else
      var rest := Escape(s[1..]);
      EscapeCharShape(s[0]);
      AmpersandsAfterBlock(s[0], rest);
      EscapeChar(s[0]) + rest
  }

  /** `escapeHtml(value)`: `null` and `undefined` become "", strings are escaped. */
  function EscapeHtml(value: Option<string>): (r: string)
    ensures value.None? ==> r == ""
    ensures value.Some? ==> |r| >= |value.value|
    ensures forall i :: 0 <= i < |r| ==> !IsMarkup(r[i])
    ensures AmpersandsBeginEntities(r)
    ensures value.Some? ==>
      ((forall i :: 0 <= i < |value.value| ==> !IsSpecial(value.value[i])) ==> r == value.value)
  {
    Escape(value.GetOr(""))
  }

  /** `escapeHtml`'s chain of `replaceAll` calls, in its order. */
  function ReplaceChain(s: string): (r: string)
    ensures |r| >= |s|
    ensures '&' !in s && '<' !in s && '>' !in s && '"' !in s && '\'' !in s ==> r == s
  {
    var s1 := ReplaceAll(s, '&', "&amp;");
    var s2 := ReplaceAll(s1, '<', "&lt;");
    var s3 := ReplaceAll(s2, '>', "&gt;");
    var s4 := ReplaceAll(s3, '"', "&quot;");
    ReplaceAll(s4, '\'', "&#039;")
  }

  lemma {:induction false} ReplaceChainAppend(a: string, b: string)
    ensures ReplaceChain(a + b) == ReplaceChain(a) + ReplaceChain(b)
  {
    var a1, b1 := ReplaceAll(a, '&', "&amp;"), ReplaceAll(b, '&', "&amp;");
    ReplaceAllAppend(a, b, '&', "&amp;");
    var a2, b2 := ReplaceAll(a1, '<', "&lt;"), ReplaceAll(b1, '<', "&lt;");
    ReplaceAllAppend(a1, b1, '<', "&lt;");
    var a3, b3 := ReplaceAll(a2, '>', "&gt;"), ReplaceAll(b2, '>', "&gt;");
    ReplaceAllAppend(a2, b2, '>', "&gt;");
    var a4, b4 := ReplaceAll(a3, '"', "&quot;"), ReplaceAll(b3, '"', "&quot;");
    ReplaceAllAppend(a3, b3, '"', "&quot;");
    ReplaceAllAppend(a4, b4, '\'', "&#039;");
  }

  lemma {:induction false} ReplaceAllHit(x: char, rep: string)
    ensures ReplaceAll([x], x, rep) == rep
  {
    assert [x][1..] == [];
  }

  /** A character none of the calls replaces passes the chain unchanged. */
  lemma {:induction false} ReplaceChainPlain(c: char)
    requires !IsSpecial(c)
    ensures ReplaceChain([c]) == [c]
  {
    assert '&' !in [c] && '<' !in [c] && '>' !in [c] && '"' !in [c] && '\'' !in [c];
  }

  /** A special character is replaced by its own call; the entity it
      becomes holds none of the characters the later calls replace. */
  lemma {:induction false} ReplaceChainSpecial(c: char)
    requires IsSpecial(c)
    ensures ReplaceChain([c]) == EscapeChar(c)
  {
    var e := EscapeChar(c);
    if c == '&' {
      ReplaceAllHit(c, e);
      assert '<' !in e && '>' !in e && '"' !in e && '\'' !in e;
    } else if c == '<' {
      assert '&' !in [c];
      ReplaceAllHit(c, e);
      assert '>' !in e && '"' !in e && '\'' !in e;
    } else if c == '>' {
      assert '&' !in [c] && '<' !in [c];
      ReplaceAllHit(c, e);
      assert '"' !in e && '\'' !in e;
    } else if c == '"' {
      assert '&' !in [c] && '<' !in [c] && '>' !in [c];
      ReplaceAllHit(c, e);
      assert '\'' !in e;
    } else {
      assert '&' !in [c] && '<' !in [c] && '>' !in [c] && '"' !in [c];
      ReplaceAllHit(c, e);
    }
  }

  /** On one character the chain writes that character's replacement block. */
  lemma {:induction false} ReplaceChainChar(c: char)
    ensures ReplaceChain([c]) == EscapeChar(c)
  {
    if IsSpecial(c) {
      ReplaceChainSpecial(c);
    } else {
      ReplaceChainPlain(c);
    }
  }

  /** The single-pass escape is `escapeHtml`'s chain of five `replaceAll`
      calls: because `&` is replaced first, no entity written by a later
      call is touched again. */
  lemma {:induction false} EscapeIsReplaceChain(s: string)
    ensures Escape(s) == ReplaceChain(s)
  {
    if s != [] {
      assert s == [s[0]] + s[1..];
      ReplaceChainAppend([s[0]], s[1..]);
      ReplaceChainChar(s[0]);
      EscapeIsReplaceChain(s[1..]);
    }
  }

  /** Decodes the five entities `escapeHtml` writes; other text is kept. */
  function Unescape(t: string): string
    decreases |t|
  {
    if t == [] then []
    else if IsPrefix("&amp;", t) then "&" + Unescape(t[5..])
    else if IsPrefix("&lt;", t) then "<" + Unescape(t[4..])
    else if IsPrefix("&gt;", t) then ">" + Unescape(t[4..])
    else if IsPrefix("&quot;", t) then "\"" + Unescape(t[6..])
    else if IsPrefix("&#039;", t) then "'" + Unescape(t[6..])
    else [t[0]] + Unescape(t[1..])
  }

  lemma {:induction false} UnescapeAmp(rest: string)
    ensures Unescape("&amp;" + rest) == "&" + Unescape(rest)
  {
    var t := "&amp;" + rest;
    assert t[..5] == "&amp;";
    assert t[5..] == rest;
    assert t[1] == 'a';
  }

  lemma {:induction false} UnescapeLt(rest: string)
    ensures Unescape("&lt;" + rest) == "<" + Unescape(rest)
  {
    var t := "&lt;" + rest;
    assert t[..4] == "&lt;";
    assert t[4..] == rest;
    assert t[1] == 'l';
  }

  lemma {:induction false} UnescapeGt(rest: string)
    ensures Unescape("&gt;" + rest) == ">" + Unescape(rest)
  {
    var t := "&gt;" + rest;
    assert t[..4] == "&gt;";
    assert t[4..] == rest;
    assert t[1] == 'g';
  }

  lemma {:induction false} UnescapeQuot(rest: string)
    ensures Unescape("&quot;" + rest) == "\"" + Unescape(rest)
  {
    var t := "&quot;" + rest;
    assert t[..6] == "&quot;";
    assert t[6..] == rest;
    assert t[1] == 'q';
  }

  lemma {:induction false} UnescapeApos(rest: string)
    ensures Unescape("&#039;" + rest) == "'" + Unescape(rest)
  {
    var t := "&#039;" + rest;
    assert t[..6] == "&#039;";
    assert t[6..] == rest;
    assert t[1] == '#';
  }

  lemma {:induction false} UnescapePlain(c: char, rest: string)
    requires c != '&'
    ensures Unescape([c] + rest) == [c] + Unescape(rest)
  {
    var t := [c] + rest;
    assert t[0] == c;
    assert t[1..] == rest;
  }

  /** One replacement block decodes back to its character. */
  lemma {:induction false} UnescapeBlock(c: char, rest: string)
    ensures Unescape(EscapeChar(c) + rest) == [c] + Unescape(rest)
  {
    if c == '&' {
      UnescapeAmp(rest);
    } else if c == '<' {
      UnescapeLt(rest);
    } else if c == '>' {
      UnescapeGt(rest);
    } else if c == '"' {
      UnescapeQuot(rest);
    } else if c == '\'' {
      UnescapeApos(rest);
    } else {
      UnescapePlain(c, rest);
    }
  }

  /** Escaping loses nothing: the entities decode back to the input. */
  lemma {:induction false} UnescapeEscape(s: string)
    ensures Unescape(Escape(s)) == s
  {
    if s != [] {
      UnescapeBlock(s[0], Escape(s[1..]));
      UnescapeEscape(s[1..]);
      assert s == [s[0]] + s[1..];
    }
  }

  /** Distinct inputs have distinct escapes. */
  lemma EscapeHtmlInjective(a: Option<string>, b: Option<string>)
    requires a.Some? && b.Some?
    requires EscapeHtml(a) == EscapeHtml(b)
    ensures a == b
  {
    UnescapeEscape(a.value);
    UnescapeEscape(b.value);
  }
}

=== FILE: numbers.dfy ===
/** Number conversions of JavaScript as the handlers use them: `parseInt(text, 10)`,
    `Number(text)` on decimal literals, `Math.round`, and decimal rendering of
    naturals. `None` stands for `NaN` (and, for `Number(text)`, for any
    non-finite result). */
module Numbers {
  import opened Wrappers
  import opened Text

  predicate IsDigit(c: char) {
    '0' <= c <= '9'
  }

  predicate AllDigits(s: string) {
    forall i :: 0 <= i < |s| ==> IsDigit(s[i])
  }

  function DigitChar(d: nat): (c: char)
    requires d < 10
    ensures IsDigit(c)
  {
    ('0' as int + d) as char
  }

  function DigitValue(c: char): (d: nat)
    requires IsDigit(c)
    ensures d < 10 && DigitChar(d) == c
  {
    c as int - '0' as int
  }

  function Pow10(k: nat): (r: nat)
    ensures r >= 1
  {
    if k == 0 then 1 else 10 * Pow10(k - 1)
  }

  /** Value of a string of decimal digits, most significant first; "" is 0. */
  function DigitsValue(s: string): nat
    requires AllDigits(s)
  {
    if s == [] then 0 else DigitsValue(s[..|s| - 1]) * 10 + DigitValue(s[|s| - 1])
  }

  lemma {:induction false} DigitsValueAppend(a: string, b: string)
    requires AllDigits(a) && AllDigits(b)
    ensures AllDigits(a + b)
    ensures DigitsValue(a + b) == DigitsValue(a) * Pow10(|b|) + DigitsValue(b)
  {
    if b == [] {
      assert a + b == a;
    } else {
      var b' := b[..|b| - 1];
      var ab := a + b;
      assert ab[..|ab| - 1] == a + b';
      assert ab[|ab| - 1] == b[|b| - 1];
      DigitsValueAppend(a, b');
      ShiftDigit(DigitsValue(a), Pow10(|b'|), DigitsValue(b'), DigitValue(b[|b| - 1]));
    }
  }

  /** Appending one digit: `(x·p + y)·10 + d == x·(10p) + (10y + d)`. */
  lemma {:induction false} ShiftDigit(x: int, p: int, y: int, d: int)
    ensures (x * p + y) * 10 + d == x * (p * 10) + (y * 10 + d)
  {
  }

  /** Decimal rendering of a natural number (`String(n)`), without leading zeros. */
  function NatText(n: nat): (r: string)
    ensures |r| > 0 && AllDigits(r)
    ensures DigitsValue(r) == n
    ensures r[0] == '0' ==> r == "0"
  {
    if n < 10 then [DigitChar(n)]
    else
      var prefix := NatText(n / 10);
      var r := prefix + [DigitChar(n % 10)];
      assert r[..|r| - 1] == prefix;
      r
  }

  /** The two digits `toFixed(2)` prints after the decimal point. */
  function TwoDigits(n: nat): (r: string)
    requires n < 100
    ensures |r| == 2 && AllDigits(r)
    ensures DigitsValue(r) == n
  {
    var r := [DigitChar(n / 10), DigitChar(n % 10)];
    assert r[..1] == [r[0]];
    assert [r[0]][..0] == [];
    assert DigitsValue([r[0]]) == n / 10;
    assert DigitsValue(r) == (n / 10) * 10 + n % 10;
    r
  }

  /** The longest prefix of `s` made of decimal digits. */
  function DigitPrefix(s: string): (r: string)
    ensures |r| <= |s| && r == s[..|r|] && AllDigits(r)
    ensures |r| == |s| || !IsDigit(s[|r|])
  {
    if |s| > 0 && IsDigit(s[0]) then [s[0]] + DigitPrefix(s[1..]) else []
  }

  lemma {:induction false} DigitPrefixOf(ds: string, rest: string)
    requires AllDigits(ds)
    requires rest == [] || !IsDigit(rest[0])
    ensures DigitPrefix(ds + rest) == ds
  {
    if ds == [] {
      assert ds + rest == rest;
    } else {
      assert (ds + rest)[1..] == ds[1..] + rest;
      DigitPrefixOf(ds[1..], rest);
    }
  }

  /** `parseInt(s, 10)`: leading white space is skipped, one optional sign is
      read, then the longest run of digits; no digit at all gives `NaN`.
      Trailing text is ignored, so "12abc" gives 12. */
  function ParseIntPrefix(s: string): (r: Option<int>)
    ensures r.None? <==> DigitPrefix(UnsignedPart(TrimStart(s))) == []
  {
    var t := TrimStart(s);
    var ds := DigitPrefix(UnsignedPart(t));
    var magnitude: int := if ds == [] then 0 else DigitsValue(ds);
    if ds == [] then None
    else if |t| > 0 && t[0] == '-' then Some(-magnitude)
    else Some(magnitude)
  }

  /** `t` without one leading '+' or '-'. */
  function UnsignedPart(t: string): (r: string)
    ensures r == t || (|t| > 0 && (t[0] == '+' || t[0] == '-') && r == t[1..])
  {
    if |t| > 0 && (t[0] == '+' || t[0] == '-') then t[1..] else t
  }

  /** `parseInt` reads back what `String(n)` wrote, whatever non-digit text follows. */
  lemma {:induction false} ParseIntPrefixNatText(n: nat, rest: string)
    requires rest == [] || !IsDigit(rest[0])
    ensures ParseIntPrefix(NatText(n) + rest) == Some(n)
  {
    var s := NatText(n) + rest;
    var c := s[0];
    assert c == NatText(n)[0];
    assert IsDigit(c);
    assert !IsSpace(c);
    assert TrimStart(s) == s;
    assert UnsignedPart(s) == s;
    DigitPrefixOf(NatText(n), rest);
    assert DigitPrefix(UnsignedPart(TrimStart(s))) == NatText(n);
  }

  /** The value of a decimal literal given as the digits before and after the
      point: each fractional digit moves into the integer part and divides
      the value by ten. */
  function DecimalValue(intPart: string, fracPart: string): (v: real)
    requires AllDigits(intPart) && AllDigits(fracPart)
    ensures v >= 0.0
    decreases |fracPart|
  {
    if fracPart == [] then DigitsValue(intPart) as real
    else
      var next := intPart + [fracPart[0]];
      assert forall i :: 0 <= i < |next| ==> IsDigit(next[i]);
      DecimalValue(next, fracPart[1..]) / 10.0
  }

  /** With two digits after the point, the value is the digits' value
      divided by a hundred. */
  lemma {:induction false} DecimalValueTwoPlaces(intPart: string, fracPart: string)
    requires AllDigits(intPart) && AllDigits(fracPart) && |fracPart| == 2
    ensures AllDigits(intPart + fracPart)
    ensures DecimalValue(intPart, fracPart) == DigitsValue(intPart + fracPart) as real / 100.0
  {
    var one := intPart + [fracPart[0]];
    var two := one + [fracPart[1]];
    assert forall i :: 0 <= i < |one| ==> IsDigit(one[i]);
    assert forall i :: 0 <= i < |two| ==> IsDigit(two[i]);
    assert fracPart[1..][1..] == [];
    assert DecimalValue(one, fracPart[1..]) == DecimalValue(two, []) / 10.0;
    assert two == intPart + fracPart;
  }

  /** `Number(s)` for a string `s`: surrounding white space is ignored, the
      empty string is 0, and otherwise the text must be an optional sign,
      digits, and an optional point followed by digits, with at least one
      digit in all. Every other text gives `None`. */
  function ParseNumber(s: string): (r: Option<real>)
    ensures IsBlank(s) ==> r == Some(0.0)
  {
    var t := Trim(s);
    if t == [] then Some(0.0)
    else
      match UnsignedDecimal(UnsignedPart(t))
      case None => None
      case Some(magnitude) => Some(if t[0] == '-' then -magnitude else magnitude)
  }

  /** The value of an unsigned decimal literal: digits, optionally a point and
      more digits, at least one digit in all. */
  function UnsignedDecimal(body: string): (r: Option<real>)
    ensures r.Some? ==> r.value >= 0.0
  {
    var k := IndexOf(body, '.');
    var intPart := body[..k];
    var fracPart := if k < |body| then body[k + 1..] else [];
    if AllDigits(intPart) && AllDigits(fracPart) && |intPart| + |fracPart| > 0 then
      Some(DecimalValue(intPart, fracPart))
    else None
  }

  /** A literal written as `intPart.fracPart` reads back as its decimal value. */
  lemma {:induction false} UnsignedDecimalOf(intPart: string, fracPart: string)
    requires AllDigits(intPart) && AllDigits(fracPart) && |intPart| > 0
    ensures UnsignedDecimal(intPart + "." + fracPart) == Some(DecimalValue(intPart, fracPart))
  {
    var body := intPart + "." + fracPart;
    assert '.' !in intPart;
    IndexOfAfter(intPart, "." + fracPart, '.');
    assert body == intPart + ("." + fracPart);
    assert body[..|intPart|] == intPart;
    assert body[|intPart| + 1..] == fracPart;
  }

  /** A digit string without a point reads back as its value. */
  lemma {:induction false} UnsignedDecimalOfDigits(ds: string)
    requires AllDigits(ds) && |ds| > 0
    ensures UnsignedDecimal(ds) == Some(DigitsValue(ds) as real)
  {
    assert '.' !in ds;
    assert ds[..|ds|] == ds;
    assert ds + [] == ds;
  }

  /** `Number(String(n)) == n`. */
  lemma {:induction false} ParseNumberNatText(n: nat)
    ensures ParseNumber(NatText(n)) == Some(n as real)
  {
    var s := NatText(n);
    assert NoEdgeSpace(s);
    assert UnsignedPart(s) == s;
    UnsignedDecimalOfDigits(s);
  }

  /** `body`, preceded by a minus sign when `negative`. */
  function Signed(negative: bool, body: string): (s: string)
    ensures |s| == |body| + (if negative then 1 else 0)
  {
    (if negative then "-" else "") + body
  }

  /** `Number` of an unsigned literal that starts and ends with a digit is
      its decimal value. */
  lemma {:induction false} ParseNumberUnsigned(body: string)
    requires |body| > 0 && IsDigit(body[0]) && IsDigit(body[|body| - 1])
    ensures ParseNumber(body) == UnsignedDecimal(body)
  {
    assert NoEdgeSpace(body);
    assert UnsignedPart(body) == body;
  }

  /** `Number` of `whole.frac` is its decimal value. */
  lemma {:induction false} ParseDecimal(whole: string, frac: string, x: real)
    requires AllDigits(whole) && AllDigits(frac) && |whole| > 0 && |frac| > 0
    requires DecimalValue(whole, frac) == x
    ensures ParseNumber(whole + "." + frac) == Some(x)
  {
    var body := whole + "." + frac;
    UnsignedDecimalOf(whole, frac);
    assert body[0] == whole[0];
    assert body[|body| - 1] == frac[|frac| - 1];
    ParseNumberUnsigned(body);
  }

  /** `Math.round(x)`: the nearest integer, halves rounded up. */
  function RoundHalfUp(x: real): (r: int)
    ensures r as real - 0.5 <= x < r as real + 0.5
  {
    (x + 0.5).Floor
  }

  /** Rounding an integer gives it back. */
  lemma {:induction false} RoundInteger(n: int)
    ensures RoundHalfUp(n as real) == n
  {
    var r := RoundHalfUp(n as real);
    assert r as real - 0.5 <= n as real < r as real + 0.5;
  }

  /** `Number.isInteger(x)` for a finite `x`. */
  predicate IsInteger(x: real) {
    x.Floor as real == x
  }
}

=== FILE: public_controller.dfy ===
/** `createReservation` of controllers/publicController.js: the public
    reservation form is checked field by field, and either the visitor is
    sent back to the form with the failing fields named, or exactly one
    reservation is created. The form body maps field names to their text;
    a field that was not sent is absent. */
module PublicController {
  import opened Wrappers
  import opened Text
  import opened Numbers

  /** The labels of the checked fields, in checking order. */
  const AllLabels: seq<string> := ["Nom", "Téléphone", "Personnes", "Date", "Heure"]

  /** `a` is `b` with some elements left out, the rest in the same order. */
  predicate SubsequenceOf(a: seq<string>, b: seq<string>)
    decreases |b|
  {
    if a == [] then true
    else if b == [] then false
    else if a[0] == b[0] then SubsequenceOf(a[1..], b[1..])
    else SubsequenceOf(a, b[1..])
  }

  lemma {:induction false} SubsequenceSkip(a: seq<string>, b: seq<string>, x: string)
    requires SubsequenceOf(a, b) && (a == [] || a[0] != x)
    ensures SubsequenceOf(a, [x] + b)
  {
    assert ([x] + b)[1..] == b;
  }

  lemma {:induction false} SubsequenceKeep(a: seq<string>, b: seq<string>, x: string)
    requires SubsequenceOf(a, b)
    ensures SubsequenceOf([x] + a, [x] + b)
  {
    assert ([x] + b)[1..] == b && ([x] + a)[1..] == a;
  }

  /** The labels of the failing checks from index `k` on, in order.
      `fails[i]` says whether the check labelled `AllLabels[i]` fails. */
  function LabelsFrom(fails: seq<bool>, k: nat): (r: seq<string>)
    requires |fails| == 5 && k <= 5
    ensures SubsequenceOf(r, AllLabels[k..])
    ensures forall i :: k <= i < 5 ==> (AllLabels[i] in r <==> fails[i])
    ensures forall x :: x in r ==> x in AllLabels[k..]
    ensures r == [] <==> forall i :: k <= i < 5 ==> !fails[i]
    decreases 5 - k
  {
    if k == 5 then []
    else
      var rest := LabelsFrom(fails, k + 1);
      assert AllLabels[k..] == [AllLabels[k]] + AllLabels[k + 1..];
      assert AllLabels[k] !in AllLabels[k + 1..];
      if fails[k] then
        SubsequenceKeep(rest, AllLabels[k + 1..], AllLabels[k]);
        [AllLabels[k]] + rest
      else
        assert rest != [] ==> rest[0] in AllLabels[k + 1..];
        SubsequenceSkip(rest, AllLabels[k + 1..], AllLabels[k]);
        rest
  }

  /** `Number(people)` when it is an integer from 1 to 20, `None` when the
      field is absent (`Number(undefined)` is `NaN`) or the value is not
      such an integer. */
  function PeopleCount(raw: Option<string>): (n: Option<int>)
    ensures n.Some? ==> 1 <= n.value <= 20
    ensures n.Some? ==> raw.Some? && ParseNumber(raw.value) == Some(n.value as real)
    ensures n.None? ==> raw.None? || match ParseNumber(raw.value)
      case None => true
      case Some(x) => !IsInteger(x) || x < 1.0 || x > 20.0
  {
    match raw
    case None => None
    case Some(s) =>
      match ParseNumber(s)
      case None => None
      case Some(x) => if IsInteger(x) && 1.0 <= x <= 20.0 then Some(x.Floor) else None
  }

  /** The form number input: every count from 1 to 20 is accepted as itself. */
  lemma {:induction false} PeopleCountOfText(n: nat)
    requires 1 <= n <= 20
    ensures PeopleCount(Some(NatText(n))) == Some(n)
  {
    ParseNumberNatText(n);
  }

  /** An empty count is `Number("") == 0`, which is below the range. */
  lemma {:induction false} PeopleCountEmpty()
    ensures PeopleCount(Some("")) == None
  {
    assert IsBlank("");
  }

  function Get(body: map<string, string>, key: string): Option<string> {
    if key in body then Some(body[key]) else None
  }

  /** The five checks: the name and the phone must be non-blank once
      trimmed, the count must be an integer from 1 to 20, the date and the
      time must be non-empty (they are not trimmed). */
  datatype Checks = Checks(nameOk: bool, phoneOk: bool, people: Option<int>, dateOk: bool, timeOk: bool)

  function ReadChecks(body: map<string, string>): (c: Checks)
    ensures c.nameOk <==> "fullname" in body && !AllSpace(body["fullname"])
    ensures c.phoneOk <==> "phone" in body && !AllSpace(body["phone"])
    ensures c.people.Some? <==> "people" in body && PeopleCount(Some(body["people"])).Some?
    ensures c.people.Some? ==> 1 <= c.people.value <= 20
    ensures c.dateOk <==> "reservation_date" in body && |body["reservation_date"]| > 0
    ensures c.timeOk <==> "reservation_time" in body && |body["reservation_time"]| > 0
  {
    Checks(
      "fullname" in body && !IsBlank(body["fullname"]),
      "phone" in body && !IsBlank(body["phone"]),
      PeopleCount(Get(body, "people")),
      "reservation_date" in body && body["reservation_date"] != "",
      "reservation_time" in body && body["reservation_time"] != "")
  }

  /** The labels `createReservation` collects: one per failing check, in
      the order Nom, Téléphone, Personnes, Date, Heure. */
  function Labels(c: Checks): (r: seq<string>)
    ensures SubsequenceOf(r, AllLabels)
    ensures "Nom" in r <==> !c.nameOk
    ensures "Téléphone" in r <==> !c.phoneOk
    ensures "Personnes" in r <==> c.people.None?
    ensures "Date" in r <==> !c.dateOk
    ensures "Heure" in r <==> !c.timeOk
    ensures r == [] <==> c.nameOk && c.phoneOk && c.people.Some? && c.dateOk && c.timeOk
  {
    var fails := [!c.nameOk, !c.phoneOk, c.people.None?, !c.dateOk, !c.timeOk];
    var r := LabelsFrom(fails, 0);
    assert AllLabels[0..] == AllLabels;
    assert AllLabels[0] == "Nom" && AllLabels[1] == "Téléphone" && AllLabels[2] == "Personnes";
    assert AllLabels[3] == "Date" && AllLabels[4] == "Heure";
    r
  }

  /** The data handed to `ReservationModel.create`: the fields as sent,
      untrimmed, with the count as a number. */
  datatype ReservationData = ReservationData(
    fullname: string, phone: string, email: Option<string>, people: int,
    date: string, time: string, message: Option<string>)

  datatype Response =
    | BackToForm(error: string)   // the labels joined by ", ", before URL encoding
    | CreateFailed500
    | RequestSent

  /** The `create` calls made and the response sent. */
  datatype Outcome = Outcome(creates: seq<ReservationData>, response: Response)

  /** `createReservation`: any failing check sends the visitor back to the
      form with the labels and makes no create call; otherwise exactly one
      create call is made, with the form's own texts and the parsed count. */
  function CreateReservation(body: map<string, string>, createFails: bool): (o: Outcome)
    ensures var labels := Labels(ReadChecks(body));
      labels != [] ==> o == Outcome([], BackToForm(Join(labels, ", ")))
    ensures Labels(ReadChecks(body)) == [] <==> |o.creates| == 1
    ensures o.creates != [] ==>
      && o.creates[0].fullname == body["fullname"] && o.creates[0].phone == body["phone"]
      && o.creates[0].date == body["reservation_date"] && o.creates[0].time == body["reservation_time"]
      && o.creates[0].email == Get(body, "email") && o.creates[0].message == Get(body, "message")
      && 1 <= o.creates[0].people <= 20
      && ParseNumber(body["people"]) == Some(o.creates[0].people as real)
    ensures o.creates != [] ==> (o.response == CreateFailed500 <==> createFails)
  {
    var c := ReadChecks(body);
    var labels := Labels(c);
    if labels != [] then Outcome([], BackToForm(Join(labels, ", ")))
    else
      var data := ReservationData(
        body["fullname"], body["phone"], Get(body, "email"), c.people.value,
        body["reservation_date"], body["reservation_time"], Get(body, "message"));
      Outcome([data], if createFails then CreateFailed500 else RequestSent)
  }

  /** Each label names exactly the field that failed its check. */
  lemma {:induction false} LabelsOfForm(body: map<string, string>)
    ensures var r := Labels(ReadChecks(body));
      && ("Nom" in r <==> !("fullname" in body && !IsBlank(body["fullname"])))
      && ("Téléphone" in r <==> !("phone" in body && !IsBlank(body["phone"])))
      && ("Date" in r <==> !("reservation_date" in body && body["reservation_date"] != ""))
      && ("Heure" in r <==> !("reservation_time" in body && body["reservation_time"] != ""))
  {
  }

  /** The count is rejected exactly when it is absent, not a number, not an
      integer, or outside 1..20. */
  lemma {:induction false} PeopleLabelOfForm(body: map<string, string>)
    ensures "Personnes" in Labels(ReadChecks(body)) <==>
      !("people" in body && ParseNumber(body["people"]).Some?
        && IsInteger(ParseNumber(body["people"]).value)
        && 1.0 <= ParseNumber(body["people"]).value <= 20.0)
  {
    var c := ReadChecks(body);
    assert c.people == PeopleCount(Get(body, "people"));
  }
}

=== FILE: settings_model.dfy ===
/** models/SettingsModel.js: the restaurant's settings, kept as the single
    row 1 of the `settings` table. The table is a map from id to stored row;
    `updated_at` is written by the database and arrives as a parameter. */
module SettingsModel {
  import opened Wrappers

  /** A `settings` row as MySQL returns it; every column may be NULL. */
  datatype StoredRow = StoredRow(
    restaurantName: Option<string>, address: Option<string>, phone: Option<string>,
    email: Option<string>, capacity: Option<int>, reservationEnabled: Option<int>,
    openingHours: Option<string>, updatedAt: Option<string>)

  type Table = map<int, StoredRow>

  /** The settings object `get` hands to its caller. */
  datatype Settings = Settings(
    id: int, restaurantName: Option<string>, address: Option<string>, phone: Option<string>,
    email: Option<string>, capacity: int, reservationEnabled: int, openingHours: string,
    updatedAt: Option<string>)

  /** `mapRow`: the capacity defaults to 0, the reservation switch becomes 0
      or 1, the opening hours default to ""; the other columns pass through. */
  function MapRow(id: int, r: StoredRow): (s: Settings)
    ensures s.id == id
    ensures s.reservationEnabled == 0 || s.reservationEnabled == 1
    ensures s.reservationEnabled == 1 <==> r.reservationEnabled.Some? && r.reservationEnabled.value != 0
    ensures r.capacity.None? ==> s.capacity == 0
    ensures r.capacity.Some? ==> s.capacity == r.capacity.value
    ensures r.openingHours.None? ==> s.openingHours == ""
    ensures r.openingHours.Some? ==> s.openingHours == r.openingHours.value
    ensures s.restaurantName == r.restaurantName && s.address == r.address
    ensures s.phone == r.phone && s.email == r.email && s.updatedAt == r.updatedAt
  {
    var enabled := if r.reservationEnabled.Some? && r.reservationEnabled.value != 0 then 1 else 0;
    Settings(
      id, r.restaurantName, r.address, r.phone, r.email, r.capacity.GetOr(0), enabled,
      r.openingHours.GetOr(""), r.updatedAt)
  }

  /** The configuration `get` returns while row 1 does not exist. */
  const DefaultSettings: Settings :=
    Settings(1, Some("Mon Restaurant"), Some(""), Some(""), Some(""), 40, 1, "", None)

  /** `get`: row 1 through `mapRow`, or the default configuration. */
  function Get(table: Table): (s: Settings)
    ensures s.id == 1
    ensures s.reservationEnabled == 0 || s.reservationEnabled == 1
    ensures 1 !in table ==> s == DefaultSettings
    ensures 1 in table ==> s == MapRow(1, table[1])
  {
    if 1 in table then MapRow(1, table[1]) else DefaultSettings
  }

  /** The data handed to `update`. A text field is `None` when it is `null`
      or `undefined`; a number field holds `Number(value)`, `None` when that
      is not finite. */
  datatype UpdateData = UpdateData(
    restaurantName: Option<string>, address: Option<string>, phone: Option<string>,
    email: Option<string>, capacity: Option<int>, reservationEnabled: Option<int>,
    openingHours: Option<string>)

  /** The seven values bound to the upsert. */
  datatype Payload = Payload(
    restaurantName: string, address: string, phone: string, email: string,
    capacity: int, reservationEnabled: int, openingHours: string)

  /** `update`'s payload: nullish text becomes its default, a capacity that
      is not finite becomes 40, and the switch is 1 exactly for a non-zero
      number. */
  function MakePayload(d: UpdateData): (p: Payload)
    ensures d.restaurantName.None? ==> p.restaurantName == "Mon Restaurant"
    ensures d.restaurantName.Some? ==> p.restaurantName == d.restaurantName.value
    ensures d.capacity.None? ==> p.capacity == 40
    ensures d.capacity.Some? ==> p.capacity == d.capacity.value
    ensures p.reservationEnabled == 0 || p.reservationEnabled == 1
    ensures p.reservationEnabled == 1 <==> d.reservationEnabled.Some? && d.reservationEnabled.value != 0
    ensures p.address == d.address.GetOr("") && p.phone == d.phone.GetOr("")
    ensures p.email == d.email.GetOr("") && p.openingHours == d.openingHours.GetOr("")
  {
    var enabled := if d.reservationEnabled.Some? && d.reservationEnabled.value != 0 then 1 else 0;
    Payload(
      d.restaurantName.GetOr("Mon Restaurant"), d.address.GetOr(""), d.phone.GetOr(""),
      d.email.GetOr(""), d.capacity.GetOr(40), enabled, d.openingHours.GetOr(""))
  }

  /** The row the upsert leaves at id 1. */
  function PayloadRow(p: Payload, stamp: Option<string>): StoredRow {
    StoredRow(
      Some(p.restaurantName), Some(p.address), Some(p.phone), Some(p.email),
      Some(p.capacity), Some(p.reservationEnabled), Some(p.openingHours), stamp)
  }

  /** `update`: INSERT ... ON DUPLICATE KEY UPDATE on id 1. Row 1 holds the
      payload afterwards, whether it existed or not, and no other row is
      touched. */
  function Update(table: Table, d: UpdateData, stamp: Option<string>): (t: Table)
    ensures t.Keys == table.Keys + {1}
    ensures t[1] == PayloadRow(MakePayload(d), stamp)
    ensures forall id :: id in table && id != 1 ==> t[id] == table[id]
  {
    table[1 := PayloadRow(MakePayload(d), stamp)]
  }

  /** A sequence of `update` calls, each with the timestamp the database gave it. */
  function UpdateAll(table: Table, calls: seq<(UpdateData, Option<string>)>): Table
    decreases |calls|
  {
    if calls == [] then table
    else UpdateAll(Update(table, calls[0].0, calls[0].1), calls[1..])
  }

  /** Every update writes row 1 only: starting from a table with no other
      row, no sequence of updates creates one. */
  lemma {:induction false} SingleRow(table: Table, calls: seq<(UpdateData, Option<string>)>)
    requires table.Keys <= {1}
    ensures UpdateAll(table, calls).Keys <= {1}
    decreases |calls|
  {
    if calls != [] {
      var next := Update(table, calls[0].0, calls[0].1);
      assert next.Keys <= {1};
      SingleRow(next, calls[1..]);
    }
  }

  /** Repeating an update with the same data leaves the table as one update does. */
  lemma {:induction false} UpdateIdempotent(table: Table, d: UpdateData, stamp: Option<string>)
    ensures Update(Update(table, d, stamp), d, stamp) == Update(table, d, stamp)
  {
  }

  /** After an update, `get` reads back the payload. */
  lemma {:induction false} GetAfterUpdate(table: Table, d: UpdateData, stamp: Option<string>)
    ensures var s := Get(Update(table, d, stamp));
      var p := MakePayload(d);
      && s.restaurantName == Some(p.restaurantName) && s.address == Some(p.address)
      && s.phone == Some(p.phone) && s.email == Some(p.email)
      && s.capacity == p.capacity && s.reservationEnabled == p.reservationEnabled
      && s.openingHours == p.openingHours && s.updatedAt == stamp
  {
    var t := Update(table, d, stamp);
    assert 1 in t;
    var p := MakePayload(d);
    assert t[1] == PayloadRow(p, stamp);
  }
}

=== FILE: text.dfy ===
/** String operations with the semantics of the JavaScript built-ins the
    handlers call: `trim`, `toUpperCase` (for the letters listed at `UpperOf`),
    `toLowerCase` (ASCII letters only), `||` on a form field,
    `join`, `replaceAll` with a one-character pattern and `replace` of the
    first occurrence. */
module Text {

  /** The WhiteSpace and LineTerminator code points of ECMAScript, which
      `String.prototype.trim` and `Number(text)` strip. */
  predicate IsSpace(c: char) {
    || c == ' ' || c == '\t' || c == '\n' || c == '\r' || c == '\U{B}' || c == '\U{C}'
    || c == '\U{A0}' || c == '\U{1680}' || ('\U{2000}' <= c <= '\U{200A}')
    || c == '\U{2028}' || c == '\U{2029}' || c == '\U{202F}' || c == '\U{205F}'
    || c == '\U{3000}' || c == '\U{FEFF}'
  }

  predicate AllSpace(s: string) {
    forall i :: 0 <= i < |s| ==> IsSpace(s[i])
  }

  /** Neither end of `s` is white space. */
  predicate NoEdgeSpace(s: string) {
    s == [] || (!IsSpace(s[0]) && !IsSpace(s[|s| - 1]))
  }

  predicate IsPrefix(p: string, s: string) {
    |p| <= |s| && s[..|p|] == p
  }

  /** `s` with its leading white space removed. */
  function TrimStart(s: string): (r: string)
    ensures |r| <= |s| && r == s[|s| - |r|..]
    ensures AllSpace(s[..|s| - |r|])
    ensures r == [] || !IsSpace(r[0])
  {
    if |s| > 0 && IsSpace(s[0]) then
      var r := TrimStart(s[1..]);
      assert s[..|s| - |r|] == [s[0]] + s[1..][..|s| - 1 - |r|];
      assert s[|s| - |r|..] == s[1..][|s| - 1 - |r|..];
      r
    else s
  }

  /** `s` with its trailing white space removed. */
  function TrimEnd(s: string): (r: string)
    ensures |r| <= |s| && r == s[..|r|]
    ensures AllSpace(s[|r|..])
    ensures r == [] || !IsSpace(r[|r| - 1])
  {
    if |s| > 0 && IsSpace(s[|s| - 1]) then
      var r := TrimEnd(s[..|s| - 1]);
      assert s[|r|..] == s[..|s| - 1][|r|..] + [s[|s| - 1]];
      assert s[..|r|] == s[..|s| - 1][..|r|];
      r
    else s
  }

  /** `r` is the part of `s` from index `i` on, with only white space
      before and after it. */
  predicate EdgeSliceAt(s: string, i: int, r: string) {
    0 <= i && i + |r| <= |s| && r == s[i..i + |r|] && AllSpace(s[..i]) && AllSpace(s[i + |r|..])
  }

  /** `trimStart` stops at the first character that is not white space. */
  lemma {:induction false} TrimStartAt(s: string, i: nat)
    requires i < |s| && !IsSpace(s[i]) && AllSpace(s[..i])
    ensures TrimStart(s) == s[i..]
    decreases i
  {
    if i > 0 {
      assert IsSpace(s[..i][0]);
      assert s[1..][..i - 1] == s[1..i] == s[..i][1..];
      TrimStartAt(s[1..], i - 1);
      assert s[1..][i - 1..] == s[i..];
    }
  }

  /** `trimEnd` stops after the last character that is not white space. */
  lemma {:induction false} TrimEndAt(s: string, m: nat)
    requires 0 < m <= |s| && !IsSpace(s[m - 1]) && AllSpace(s[m..])
    ensures TrimEnd(s) == s[..m]
    decreases |s| - m
  {
    if m < |s| {
      var s' := s[..|s| - 1];
      assert IsSpace(s[m..][|s| - 1 - m]);
      assert s'[m..] == s[m..][..|s| - 1 - m];
      TrimEndAt(s', m);
      assert s'[..m] == s[..m];
    }
  }

  /** `String.prototype.trim`: the result is `s` without white space at
      either end, and it is empty exactly when `s` is all white space. */
  function Trim(s: string): (r: string)
    ensures |r| <= |s|
    ensures NoEdgeSpace(r)
    ensures r == [] <==> AllSpace(s)
    ensures NoEdgeSpace(s) ==> r == s
    ensures EdgeSliceAt(s, |s| - |TrimStart(s)|, r)
  {
    var t := TrimStart(s);
    var r := TrimEnd(t);
    EdgeSlice(s, t, r);
    r
  }

  /** Trimming the front, then the back, removes only white space at the
      edges, leaves none there, and leaves nothing of an all-space text. */
  lemma {:induction false} EdgeSlice(s: string, t: string, r: string)
    requires |t| <= |s| && t == s[|s| - |t|..] && AllSpace(s[..|s| - |t|]) && (t == [] || !IsSpace(t[0]))
    requires |r| <= |t| && r == t[..|r|] && AllSpace(t[|r|..]) && (r == [] || !IsSpace(r[|r| - 1]))
    requires NoEdgeSpace(s) ==> t == s
    ensures NoEdgeSpace(r)
    ensures r == [] <==> AllSpace(s)
    ensures NoEdgeSpace(s) ==> r == s
    ensures EdgeSliceAt(s, |s| - |t|, r)
  {
    var i := |s| - |t|;
    assert s[i..i + |r|] == r && s[i + |r|..] == t[|r|..];
    assert r != [] ==> r[0] == t[0];
    if r == [] {
      assert t == [];
      forall k | 0 <= k < |s| ensures IsSpace(s[k]) {
        assert s[k] == s[..i][k];
      }
    }
  }

  /** A blank field: empty or white space only, so that `trim()` yields "". */
  predicate IsBlank(s: string) {
    Trim(s) == []
  }

  /** The upper-case form `toUpperCase` gives one character, for the ASCII
      and Latin-1 letters and for every character whose upper-case form is
      ASCII text (dotless i, long s, sharp s and the Latin ligatures).
      Other characters are kept. */
  function UpperOf(c: char): (u: string)
    ensures |u| >= 1
  {
    if 'a' <= c <= 'z' || ('\U{E0}' <= c <= '\U{FE}' && c != '\U{F7}') then [(c as int - 32) as char]
    else if c == '\U{FF}' then ['\U{178}']
    else if c == '\U{B5}' then ['\U{39C}']
    else if c == '\U{DF}' then "SS"
    else if c == '\U{17F}' then "S"
    else if c == '\U{131}' then "I"
    else if c == '\U{FB00}' then "FF"
    else if c == '\U{FB01}' then "FI"
    else if c == '\U{FB02}' then "FL"
    else if c == '\U{FB03}' then "FFI"
    else if c == '\U{FB04}' then "FFL"
    else if c == '\U{FB05}' || c == '\U{FB06}' then "ST"
    else [c]
  }

  /** An upper-case ASCII letter is its own upper-case form. */
  lemma {:induction false} UpperOfCapital(c: char)
    requires 'A' <= c <= 'Z'
    ensures UpperOf(c) == [c]
  {
  }

  /** `toUpperCase`: each character replaced by its upper-case form. */
  function ToUpper(s: string): (r: string)
    ensures |r| >= |s|
    ensures r == [] <==> s == []
  {
    if s == [] then [] else UpperOf(s[0]) + ToUpper(s[1..])
  }

  /** Upper-casing distributes over concatenation. */
  lemma {:induction false} ToUpperAppend(a: string, b: string)
    ensures ToUpper(a + b) == ToUpper(a) + ToUpper(b)
  {
    if a != [] {
      assert (a + b)[1..] == a[1..] + b;
      ToUpperAppend(a[1..], b);
    } else {
      assert a + b == b;
    }
  }

  /** Accented letters keep their accent; the long s, the dotless i and the
      sharp s become ASCII text. */
  lemma {:induction false} UpperOfExamples()
    ensures UpperOf('é') == "É" && UpperOf('ÿ') == "Ÿ"
    ensures UpperOf('ſ') == "S" && UpperOf('ı') == "I" && UpperOf('ß') == "SS"
  {
  }

  function ToLowerChar(c: char): char {
    if 'A' <= c <= 'Z' then (c as int + 32) as char else c
  }

  /** `toLowerCase`, restricted to ASCII letters. Its one use is the
      comparison with "desc": no other character lower-cases to one of its
      letters, so the comparison comes out as with the full mapping. */
  function ToLower(s: string): (r: string)
    ensures |r| == |s|
  {
    seq(|s|, i requires 0 <= i < |s| => ToLowerChar(s[i]))
  }

  /** Lower-casing twice is lower-casing once. */
  lemma {:induction false} ToLowerIdempotent(s: string)
    ensures ToLower(ToLower(s)) == ToLower(s)
  {
    assert forall i :: 0 <= i < |s| ==> ToLower(ToLower(s))[i] == ToLower(s)[i];
  }

  /** Upper-casing leaves a string of upper-case ASCII letters unchanged. */
  lemma {:induction false} ToUpperIdentity(s: string)
    requires forall i :: 0 <= i < |s| ==> 'A' <= s[i] <= 'Z'
    ensures ToUpper(s) == s
  {
    if s != [] {
      UpperOfCapital(s[0]);
      ToUpperIdentity(s[1..]);
      assert s == [s[0]] + s[1..];
    }
  }

  /** `query[key] || fallback`: a present non-empty field is returned as it
      is, a missing or empty one gives the fallback. */
  function FieldOr(query: map<string, string>, key: string, fallback: string): (r: string)
    ensures key in query && query[key] != "" ==> r == query[key]
    ensures key !in query || query[key] == "" ==> r == fallback
  {
    if key in query && query[key] != "" then query[key] else fallback
  }

  /** `v` is the form's `key` field trimmed, or "" when there is none:
      `(fields[key] || '').trim()`. */
  predicate TextColumn(fields: map<string, string>, key: string, v: string) {
    && (key in fields ==> v == Trim(fields[key]))
    && (key !in fields ==> v == "")
  }

  /** Helper for callers that read a field with an empty fallback: the
      trimmed read satisfies `TextColumn`. */
  lemma {:induction false} TrimmedColumn(fields: map<string, string>, key: string, raw: string)
    requires key in fields ==> raw == fields[key] || (raw == "" && fields[key] == "")
    requires key !in fields ==> raw == ""
    ensures TextColumn(fields, key, Trim(raw))
  {
    assert IsBlank("");
  }

  /** The total length of `parts`. */
  function Lengths(parts: seq<string>): nat {
    if parts == [] then 0 else |parts[0]| + Lengths(parts[1..])
  }

  /** `Array.prototype.join`: the parts in order with one separator between
      neighbours, so the first part begins the result. */
  function Join(parts: seq<string>, sep: string): (r: string)
    ensures parts == [] ==> r == ""
    ensures parts != [] ==> IsPrefix(parts[0], r) && |r| == Lengths(parts) + (|parts| - 1) * |sep|
  {
    if |parts| == 0 then ""
    else if |parts| == 1 then parts[0]
    else parts[0] + sep + Join(parts[1..], sep)
  }

  /** Joining parts that are all non-empty gives "" exactly when there are no parts. */
  /** A single part joins to itself, with no separator. */
  lemma {:induction false} JoinOne(p: string, sep: string)
    ensures Join([p], sep) == p
  {
  }

  /** Appending a part puts the separator, then the part, after the
      joined text: every part appears, in order, separated by `sep`. */
  lemma {:induction false} JoinSnoc(ps: seq<string>, p: string, sep: string)
    requires ps != []
    ensures Join(ps + [p], sep) == Join(ps, sep) + sep + p
    decreases |ps|
  {
    var w := ps + [p];
    assert w[0] == ps[0];
    if |ps| == 1 {
      assert w[1..] == [p];
      JoinOne(p, sep);
    } else {
      assert w[1..] == ps[1..] + [p];
      JoinSnoc(ps[1..], p, sep);
    }
  }

  /** Joining the first `k + 1` parts appends `sep` and part `k` to the
      join of the first `k`. */
  lemma {:induction false} JoinUpTo(parts: seq<string>, k: nat, sep: string)
    requires 1 <= k < |parts|
    ensures Join(parts[..k + 1], sep) == Join(parts[..k], sep) + sep + parts[k]
  {
    assert parts[..k + 1] == parts[..k] + [parts[k]];
    JoinSnoc(parts[..k], parts[k], sep);
  }

  /** Ten parts join to the parts in order with `sep` between neighbours. */
  lemma {:induction false} JoinTen(es: seq<string>, sep: string)
    requires |es| == 10
    ensures Join(es, sep) == es[0] + sep + es[1] + sep + es[2] + sep + es[3] + sep + es[4]
      + sep + es[5] + sep + es[6] + sep + es[7] + sep + es[8] + sep + es[9]
  {
    assert es[..1] == [es[0]];
    JoinOne(es[0], sep);
    JoinUpTo(es, 1, sep);
    JoinUpTo(es, 2, sep);
    JoinUpTo(es, 3, sep);
    JoinUpTo(es, 4, sep);
    JoinUpTo(es, 5, sep);
    JoinUpTo(es, 6, sep);
    JoinUpTo(es, 7, sep);
    JoinUpTo(es, 8, sep);
    JoinUpTo(es, 9, sep);
    assert es[..10] == es;
  }

  lemma {:induction false} JoinEmptyIff(parts: seq<string>, sep: string)
    requires forall i :: 0 <= i < |parts| ==> parts[i] != []
    ensures Join(parts, sep) == [] <==> parts == []
  {
    if |parts| > 0 {
      assert IsPrefix(parts[0], Join(parts, sep));
    }
  }

  /** `s.replaceAll(c, rep)` for a one-character pattern `c`. */
  function ReplaceAll(s: string, c: char, rep: string): (r: string)
    ensures c !in s ==> r == s
    ensures |r| >= |s| || |rep| == 0
  {
    if s == [] then []
    else (if s[0] == c then rep else [s[0]]) + ReplaceAll(s[1..], c, rep)
  }

  lemma {:induction false} ReplaceAllAppend(a: string, b: string, c: char, rep: string)
    ensures ReplaceAll(a + b, c, rep) == ReplaceAll(a, c, rep) + ReplaceAll(b, c, rep)
  {
    if a == [] {
      assert a + b == b;
    } else {
      assert (a + b)[0] == a[0];
      assert (a + b)[1..] == a[1..] + b;
      ReplaceAllAppend(a[1..], b, c, rep);
    }
  }

  /** Index of the first `c` in `s`, or `|s|` when there is none. */
  function IndexOf(s: string, c: char): (k: nat)
    ensures k <= |s|
    ensures forall i :: 0 <= i < k ==> s[i] != c
    ensures k < |s| ==> s[k] == c
  {
    if s == [] then 0
    else if s[0] == c then 0
    else 1 + IndexOf(s[1..], c)
  }

  lemma {:induction false} IndexOfAfter(a: string, b: string, c: char)
    requires c !in a
    requires |b| > 0 && b[0] == c
    ensures IndexOf(a + b, c) == |a|
  {
    assert (a + b)[|a|] == c;
  }

  /** `s.replace(c, d)` with a string pattern: only the first `c` becomes `d`. */
  function ReplaceFirst(s: string, c: char, d: char): (r: string)
    ensures |r| == |s|
    ensures c !in s ==> r == s
    ensures forall i :: 0 <= i < |s| && i != IndexOf(s, c) ==> r[i] == s[i]
    ensures c in s ==> r[IndexOf(s, c)] == d
  {
    var k := IndexOf(s, c);
    if k == |s| then s else s[k := d]
  }
  /** Replacing the first `c` in `a + [c] + b`, where `a` holds no `c`,
      changes exactly that character. */
  lemma {:induction false} ReplaceFirstAt(a: string, b: string, c: char, d: char)
    requires c !in a
    ensures ReplaceFirst(a + [c] + b, c, d) == a + [d] + b
  {
    var s := a + [c] + b;
    IndexOfAfter(a, [c] + b, c);
    assert s == a + ([c] + b);
    var r := ReplaceFirst(s, c, d);
    forall i | 0 <= i < |s| ensures r[i] == (a + [d] + b)[i] {
      if i < |a| {
        assert r[i] == s[i];
      } else if i > |a| {
        assert r[i] == s[i];
      }
    }
  }

}

=== FILE: wrappers.dfy ===
/** Optional values. `None` stands for JavaScript's `undefined`/`null`, or for
    `NaN` where the optional value is a number. */
module Wrappers {

  datatype Option<+T> = None | Some(value: T) {

    /** The value, or `default` when there is none (the `??` operator). */
    function GetOr(default: T): T {
      match this
      case Some(v) => v
      case None => default
    }
  }
}
